=== FILE: README.md ===
# Soprano EFG properties in Dafny

This project models the electric-field-gradient (EFG) part of Soprano's NMR
properties and proves properties of the model. It has two layers.

- **Eigenvalue invariants** (`soprano/properties/nmr/utils.py`). The Haeberlen
  sort of an eigenvalue triple and the closed-form anisotropy, reduced
  anisotropy, asymmetry, span and skew. The gate that fails when the NMR
  reference table is not loaded.
- **The EFG property pipeline** (`soprano/properties/nmr/efg.py`). It has
  these parts:
  - the `_has_efg_check` guard;
  - `EFGDiagonal.extract`, which symmetrises each tensor, diagonalises it and
    caches three arrays in the structure's `info` map;
  - the cache protocol shared by `EFGVzz`, `EFGAnisotropy`,
    `EFGReducedAnisotropy`, `EFGAsymmetry`, `EFGSpan` and `EFGSkew`;
  - `EFGQuadrupolarConstant`, with per-atom isotope resolution, its errors
    and the product k·Q·Vzz.

Modules, in dependency order:

| module | file | contents |
|---|---|---|
| `Outcomes` | outcomes.dfy | `Option`, `Result` and the error kinds the source raises |
| `Triples` | triples.dfy | real triples, their multiset of elements, mean, ascending sort |
| `Haeberlen` | haeberlen.dfy | the stable argsort of deviations and `_haeb_sort` |
| `Invariants` | invariants.dfy | `_anisotropy`, `_asymmetry`, `_span`, `_skew` |
| `Tensors` | tensors.dfy | 3×3 real matrices and the symmetric part `(M+Mᵀ)/2` |
| `NmrData` | nmr_data.dfy | the NMR reference table and `_get_nmr_data` |
| `EfgDiagonal` | efg_diagonal.dfy | the structure, `_has_efg_check`, `EFGDiagonal.extract`, the refresh-then-read protocol |
| `EfgProperties` | efg_properties.dfy | the six derived EFG properties |
| `Quadrupolar` | quadrupolar.dfy | `EFGQuadrupolarConstant` |

Modelling choices:

- **Eigen-solver.** `np.linalg.eigh` is a parameter
  `eigh: Matrix3 -> Eigen`.
  - Every extraction returns a `Step`. A `Step` holds the result or error,
    the `info` map afterwards, and `passes`, the number of times the batch
    was handed to the diagonaliser.
  - Where a lemma needs eigenvalues that really come from the matrix, it
    assumes `IsEigensolver(eigh)`: ascending eigenvalues that sum to the
    trace of a symmetric matrix.
- **Ties in the sort.** NumPy's default argsort does not promise an order
  for ties. The model fixes a stable order: equal deviations keep index
  order. `Haeberlen.ArgSortUnique` shows that this is the only order that
  is both sorted and stable.
- **NaN and infinity.** `_asymmetry` and `_skew` divide by reduced anisotropy
  and by span. Where NumPy would produce NaN or infinity, the model returns
  `None` for that atom.
- **Errors.** Each `RuntimeError` the source raises is an `Err` value. The
  model also covers four failures the source does not raise by name:
  - An empty `efg` array makes `zip(*efg_diag)` unpack to nothing, and the
    two-name assignment on efg.py line 85 then fails. This is `EmptyBatch`.
  - A property reads `info` under one of the two eigenvalue keys. If the
    entry there is not an array of eigenvalue triples, the model gives
    `UnusableCache`. Python does not always fail here: NumPy indexing and
    reductions accept arrays of other shapes and even plain lists. See
    `EfgDiagonal.Lookup` under "Left out".
  - An isotope string that names one of the element record's own fields
    (`"iso"` or `"Q_iso"`) makes efg.py line 397 apply `['Q']` to a
    non-record value, the field's own contents. That raises a `TypeError`,
    which the `except KeyError` on line 398 does not catch. The model reports this as `NoIsotopeData`, the same
    error as an unknown isotope. See `Quadrupolar.AtomMoment` under
    "Left out".
  - The product `k*q_list*vzz` on efg.py line 408 fails with NumPy's
    broadcasting `ValueError` when the moments and the cached Vzz array have
    incompatible lengths. Nothing in the source invalidates `info`, so a
    sorted-eigenvalue entry left over from a structure with a different atom
    count reaches this product. This is `ShapeMismatch`.
- **The reference table.**
  - `Table` maps an element to its default isotope, its optional `Q_iso`
    and the quadrupole moment of each isotope.
  - The table's loaded-or-not state is an `Option<Table>`.
  - `EFGQuadrupolarConstant` tests its own module-level copy of the table
    (efg.py lines 35-40 and 366-369) rather than calling `_get_nmr_data`.
    The two gates behave the same, and the model uses `NmrData.GetNmrData`
    for both.
- **The conversion factor.** `k` is a real parameter.
- **Broadcasting.** `k*q_list*vzz` follows NumPy 1-D broadcasting: equal
  lengths multiply element by element, a length-1 array is repeated, and
  other shapes are an error.

**`isotope_list` as written versus as documented.** The class documentation
(efg.py lines 338-343) says that a non-`None` `isotope_list` item overrides
everything else. The code (efg.py lines 387-394) assigns the item and then
always overwrites it in the `if/elif/else` that follows. The model follows
the code:

- `Quadrupolar.ResolveIsotope` ignores the item.
- `Quadrupolar.QConstIgnoresIsotopeList` proves that result, `info` and
  pass count do not depend on the list.
- `Quadrupolar.ResolveIsotopeAsDocumented` states the documented
  precedence.
- `Quadrupolar.ListEntryHonouredOnlyByCoincidence` proves the two agree
  exactly when the listed isotope is the one chosen anyway.
- `Quadrupolar.DocumentedOverrideFails` gives a concrete hydrogen input on
  which they differ.

## Model

| member | source | states |
|---|---|---|
| Triples.Sort3 | soprano/properties/nmr/utils.py:59-62 | the triple in ascending order; `Median` is its middle element, as `np.median` of three values |
| Triples.Sort3Permutes | soprano/properties/nmr/utils.py:59-62 | sorting only rearranges: same multiset of elements |
| Triples.SameElemsSameMean | soprano/properties/nmr/utils.py:27 | two triples with the same elements have the same mean |
| Triples.AscendingUnique | soprano/properties/nmr/utils.py:53 | an ascending arrangement of a multiset of three values is unique |
| Triples.Sort3PermutationInvariant | soprano/properties/nmr/utils.py:53-62 | any rearrangement of the input gives the same sorted triple |
| Haeberlen.ArgSort | soprano/properties/nmr/utils.py:28-29 | a permutation of {0,1,2} listing the deviations (`Haeberlen.Deviations`, \|e − mean\| per position) in non-decreasing order, ties in index order |
| Haeberlen.ArgSortUnique | soprano/properties/nmr/utils.py:28-29 | the stable argsort is the only permutation that sorts and keeps ties in index order |
| Haeberlen.ReindexPermutes | soprano/properties/nmr/utils.py:29-31 | `Haeberlen.Reindex`, the gather by the `[1, 0, 2]`-reindexed argsort, rearranges the triple |
| Haeberlen.HaebSort | soprano/properties/nmr/utils.py:25-31 | the mean is unchanged and \|r1−m\| ≤ \|r0−m\| ≤ \|r2−m\| about the input's mean m |
| Haeberlen.HaebSortPermutes | soprano/properties/nmr/utils.py:25-31 | the Haeberlen sort returns a rearrangement of the input triple |
| Haeberlen.HaebSortIsHaeberlen | soprano/properties/nmr/utils.py:25-31 | the output meets the Haeberlen ordering about its own mean |
| Haeberlen.LastIsFarthest | soprano/properties/nmr/utils.py:28-31 | position 2 of the output is at least as far from the mean as every input eigenvalue |
| Haeberlen.HaebSortIdempotent | soprano/properties/nmr/utils.py:25-31 | sorting a sorted triple again changes nothing |
| Haeberlen.HaebSortShift | soprano/properties/nmr/utils.py:25-31 | adding a constant to every eigenvalue commutes with the sort |
| Haeberlen.HaebSortReflect | soprano/properties/nmr/utils.py:25-31 | reflecting about the mean (e ↦ 2m−e) commutes with the sort |
| Haeberlen.HaebSortAll | soprano/properties/nmr/utils.py:30-31 | the batch sort has one output per atom, each the Haeberlen sort of that atom's triple |
| Invariants.Max | soprano/properties/nmr/utils.py:53 | `np.amax`: an element of the triple bounding all three from above |
| Invariants.Min | soprano/properties/nmr/utils.py:53 | `np.amin`: an element of the triple bounding all three from below |
| Invariants.Span | soprano/properties/nmr/utils.py:50-53 | span is non-negative and every element lies in [min, min + span] |
| Invariants.ReducedIsTwoThirds | soprano/properties/nmr/utils.py:34-40 | of `Invariants.Anisotropy`: the reduced value is exactly 2/3 of the full one |
| Invariants.AnisotropyIsUniqueAxisDeviation | soprano/properties/nmr/utils.py:38-40 | anisotropy is 3/2 of (e2 − mean); reduced anisotropy is e2 − mean |
| Invariants.AnisotropySwapInvariant | soprano/properties/nmr/utils.py:40 | swapping positions 0 and 1 leaves anisotropy unchanged |
| Invariants.AnisotropyShiftInvariant | soprano/properties/nmr/utils.py:40 | adding a constant to all three eigenvalues leaves anisotropy unchanged |
| Invariants.AnisotropyReflect | soprano/properties/nmr/utils.py:40 | reflecting about the mean negates anisotropy |
| Invariants.AnisotropyIsLargestDeviation | soprano/properties/nmr/utils.py:25-40 | on a Haeberlen-sorted triple, \|reduced anisotropy\| is the largest deviation from the mean |
| Invariants.AsymmetryBounds | soprano/properties/nmr/utils.py:25-47 | of `Invariants.Asymmetry` (`None` where the reduced anisotropy is zero): on a Haeberlen-sorted triple a defined value lies in [0, 1] |
| Invariants.AsymmetryUndefinedIffIsotropic | soprano/properties/nmr/utils.py:43-47 | on a Haeberlen-sorted triple, asymmetry divides by zero exactly when all three eigenvalues are equal |
| Invariants.AsymmetryShiftReflectInvariant | soprano/properties/nmr/utils.py:43-47 | asymmetry is unchanged by a shift and by reflection about the mean |
| Invariants.SpanIsSortedRange | soprano/properties/nmr/utils.py:53 | max and min are the last and first sorted elements; span is their difference |
| Invariants.SpanPermutationInvariant | soprano/properties/nmr/utils.py:50-53 | span is the same for every rearrangement of the triple |
| Invariants.SpanShiftReflectInvariant | soprano/properties/nmr/utils.py:50-53 | span is unchanged by a shift and by reflection about the mean |
| Invariants.SpanOfHaeberlen | soprano/properties/nmr/utils.py:25-53 | span of the Haeberlen-sorted triple equals span of the plain one |
| Invariants.MedianPermutationInvariant | soprano/properties/nmr/utils.py:59-60 | `Invariants.Median` (`np.median` of three, the middle sorted value) is the same for every rearrangement of the triple |
| Invariants.SkewPermutationInvariant | soprano/properties/nmr/utils.py:56-62 | skew is the same for every rearrangement of the triple |
| Invariants.SkewBounds | soprano/properties/nmr/utils.py:56-62 | of `Invariants.Skew`, 3·(median − mean)/span with `None` where span is zero: a defined value lies in [−1, 1] |
| Invariants.MedianReflect | soprano/properties/nmr/utils.py:59-62 | reflection keeps the mean and maps the median m' to 2·mean − m' |
| Invariants.SkewReflect | soprano/properties/nmr/utils.py:56-62 | reflection about the mean keeps skew defined or undefined, and negates it when defined |
| Invariants.SkewUndefinedIffIsotropic | soprano/properties/nmr/utils.py:56-62 | skew divides by zero exactly when all three eigenvalues are equal |
| Invariants.AxialTensorExample | soprano/properties/nmr/utils.py:25-62 | eigenvalues (−2, 1, 1) sort to (1, 1, −2), with anisotropy −3, asymmetry 0, span 3 and skew 1 |
| NmrData.GetNmrData | soprano/properties/nmr/utils.py:83-89 | the table when it is loaded, otherwise the not-available error; never a missing table |
| Tensors.Transpose | soprano/properties/nmr/efg.py:83 | entry (i, j) of the transpose is entry (j, i) of the input |
| Tensors.Symmetrize | soprano/properties/nmr/efg.py:83 | `(M+Mᵀ)/2` is symmetric, keeps the trace, and returns a symmetric M unchanged |
| Tensors.SymmetrizeProperties | soprano/properties/nmr/efg.py:83 | each entry is the average of the mirrored pair; symmetrising is idempotent and ignores transposition |
| EfgDiagonal.KeysDistinct | soprano/properties/nmr/efg.py:88-92 | the three cache keys are pairwise distinct, so the writes do not overwrite each other |
| EfgDiagonal.HasEfgCheck | soprano/properties/nmr/efg.py:43-49 | succeeds exactly when the 'efg' array is present, and otherwise gives the missing-EFG error |
| EfgDiagonal.Diagonalise | soprano/properties/nmr/efg.py:83-84 | one decomposition per atom, in order, of the symmetrised tensor |
| EfgDiagonal.EvalsOf | soprano/properties/nmr/efg.py:85 | the eigenvalue column of the decompositions, per atom |
| EfgDiagonal.EvecsOf | soprano/properties/nmr/efg.py:85 | the eigenvector column of the decompositions, per atom |
| EfgDiagonal.Extract | soprano/properties/nmr/efg.py:79-95 | without 'efg': error, no pass, `info` untouched; otherwise one pass; fails exactly on an empty batch; with `save_info` writes the three keys, the sorted one being `_haeb_sort` of the plain one, and no other key |
| EfgDiagonal.Refresh | soprano/properties/nmr/efg.py:125-127 | diagonalises exactly when the key is missing or recalculation is forced; otherwise leaves `info` alone |
| EfgDiagonal.Lookup | soprano/properties/nmr/efg.py:121-131 | the efg check runs first; at most one pass, taken exactly when the key is missing or forced; without a pass `info` is unchanged and the cached array is returned; after a pass the result is the fresh array and the three keys are saved |
| EfgDiagonal.RepeatLookupReusesCache | soprano/properties/nmr/efg.py:125-129 | repeating a successful lookup without forcing diagonalises nothing and returns the same array |
| EfgDiagonal.OnePassServesBothEntries | soprano/properties/nmr/efg.py:87-92 | after a lookup that diagonalised, an unforced lookup of either eigenvalue key takes no pass and reads the fresh array |
| EfgDiagonal.AtMostOnePassAcrossCalls | soprano/properties/nmr/efg.py:87-92 | two lookups after a fresh diagonalisation take at most one pass between them |
| EfgDiagonal.FreshEntryMeanIsTraceThird | soprano/properties/nmr/efg.py:83-91 | with a real eigen-solver, each cached triple, sorted or not, has mean trace/3 of the raw tensor |
| EfgProperties.PerAtom | soprano/properties/nmr/utils.py:40-62 | a per-atom formula applied across the batch keeps length and order |
| EfgProperties.EfgVzz | soprano/properties/nmr/efg.py:121-131 | the memoisation protocol on the sorted key (success on a cache hit exactly when the entry is an eigenvalue array, after a pass exactly when the batch is non-empty), then position 2 of each cached triple |
| EfgProperties.EfgAnisotropy | soprano/properties/nmr/efg.py:158-168 | the memoisation protocol on the sorted key (success on a cache hit exactly when the entry is an eigenvalue array, after a pass exactly when the batch is non-empty), then anisotropy of each cached triple |
| EfgProperties.EfgReducedAnisotropy | soprano/properties/nmr/efg.py:195-205 | the memoisation protocol on the sorted key (success on a cache hit exactly when the entry is an eigenvalue array, after a pass exactly when the batch is non-empty), then reduced anisotropy of each cached triple |
| EfgProperties.EfgAsymmetry | soprano/properties/nmr/efg.py:232-242 | the memoisation protocol on the sorted key (success on a cache hit exactly when the entry is an eigenvalue array, after a pass exactly when the batch is non-empty), then asymmetry of each cached triple |
| EfgProperties.EfgSpan | soprano/properties/nmr/efg.py:269-279 | the memoisation protocol on the plain key (success on a cache hit exactly when the entry is an eigenvalue array, after a pass exactly when the batch is non-empty), then span of each cached triple |
| EfgProperties.EfgSkew | soprano/properties/nmr/efg.py:306-316 | the memoisation protocol on the plain key (success on a cache hit exactly when the entry is an eigenvalue array, after a pass exactly when the batch is non-empty), then skew of each cached triple |
| EfgProperties.FreshVzzIsFarthest | soprano/properties/nmr/efg.py:129-131 | a freshly computed Vzz is position 2 of the sorted eigenvalues of the symmetrised tensor, no closer to the mean than any eigenvalue |
| EfgProperties.FreshAsymmetryInUnit | soprano/properties/nmr/efg.py:236-242 | every defined freshly computed asymmetry lies in [0, 1] |
| EfgProperties.VzzThenSpanDiagonalisesOnce | soprano/properties/nmr/efg.py:125-127 | after Vzz diagonalised, span on the plain key takes no pass and leaves `info` alone |
| EfgProperties.SpanThenVzzDiagonalisesOnce | soprano/properties/nmr/efg.py:273-275 | after span diagonalised, Vzz on the sorted key takes no pass and leaves `info` alone |
| EfgProperties.ForcedCallsAlwaysDiagonalise | soprano/properties/nmr/efg.py:125-127 | with `force_recalc` every call diagonalises, cached or not |
| Quadrupolar.ResolveIsotope | soprano/properties/nmr/efg.py:387-394 | precedence `isotopes[e]`, then `Q_iso` when `use_q_isotopes` is set and one exists, then the default isotope |
| Quadrupolar.ResolveIsotopeAsDocumented | soprano/properties/nmr/efg.py:338-343 | the documented precedence: a listed isotope first, then the code's precedence |
| Quadrupolar.ListEntryHonouredOnlyByCoincidence | soprano/properties/nmr/efg.py:387-394 | code and documentation agree on a listed isotope exactly when it is the isotope chosen anyway |
| Quadrupolar.DocumentedOverrideFails | soprano/properties/nmr/efg.py:387-394 | hydrogen with `isotopes = {"H": "2"}` and listed "3": the documentation gives "3", the code "2" |
| Quadrupolar.AtomMoment | soprano/properties/nmr/efg.py:383-400 | an unknown element is its own error; otherwise the moment of the resolved isotope, or the unknown-isotope error naming it |
| Quadrupolar.Moments | soprano/properties/nmr/efg.py:379-402 | succeeds exactly when every atom's moment exists, and then lists them in atom order |
| Quadrupolar.FirstFailureDecides | soprano/properties/nmr/efg.py:381-400 | the batch error is the first failing atom's error, whatever follows it |
| Quadrupolar.MomentsIgnoreEntries | soprano/properties/nmr/efg.py:387-394 | the `isotope_list` items change no atom's moment |
| Quadrupolar.Entries | soprano/properties/nmr/efg.py:375-377 | a list of the wrong length is replaced by no items; a valid list is kept |
| Quadrupolar.Scale | soprano/properties/nmr/efg.py:408 | `k * q_list`, element by element |
| Quadrupolar.Broadcast | soprano/properties/nmr/efg.py:408 | NumPy 1-D broadcasting: defined exactly for equal lengths or a length-1 side, with the matching products |
| Quadrupolar.Product | soprano/properties/nmr/efg.py:408 | `k*q_list*vzz` is a shape error exactly when broadcasting fails, and is k·Q·Vzz per atom on equal lengths |
| Quadrupolar.VzzProduct | soprano/properties/nmr/efg.py:408 | reading Vzz with default parameters, then the product; Vzz's passes, `info` and errors carry over |
| Quadrupolar.AfterRefresh | soprano/properties/nmr/efg.py:366-408 | missing table: error with `info` as refreshed; warning exactly for a wrong-length list; a moment error aborts with no pass; at most one more pass, none when the sorted key is present; on success k·Q·Vzz per atom |
| Quadrupolar.EfgQuadrupolarConstant | soprano/properties/nmr/efg.py:358-408 | fails first without 'efg'; on success each constant is k·Q_i·Vzz_i with Q_i the moment of atom i's resolved isotope |
| Quadrupolar.QConstAtMostOnePass | soprano/properties/nmr/efg.py:362-364 | one extraction diagonalises at most once |
| Quadrupolar.QConstCacheHit | soprano/properties/nmr/efg.py:362-364 | with both eigenvalue entries cached and no forcing, no pass is taken and `info` is unchanged, whatever the table, list and atoms (the closing Vzz read of line 408 also finds its entry) |
| Quadrupolar.QConstPassRule | soprano/properties/nmr/efg.py:362-364 | for a non-empty batch with the table loaded and every atom resolvable, one pass is taken exactly when forced or either eigenvalue entry is missing (a missing sorted entry is refreshed by the Vzz read of line 408), saving all three entries; otherwise `info` is unchanged |
| Quadrupolar.QConstTableCheckedAfterDiagonal | soprano/properties/nmr/efg.py:362-369 | with no table the error comes after a needed diagonalisation has saved its keys |
| Quadrupolar.QConstAtomErrors | soprano/properties/nmr/efg.py:362-400 | for a non-empty batch with the table loaded: a wrong-length list only warns; any atom's moment error becomes the batch's error, with no partial result; by then the refresh has run, taking a pass exactly when forced or the plain entry is missing, a pass saving all three entries and no pass leaving `info` unchanged |
| Quadrupolar.QConstCachedSucceeds | soprano/properties/nmr/efg.py:362-408 | on a cache hit (both entries cached, not forced, one sorted triple per atom, every atom resolvable): success with no pass, `info` unchanged, and constant i = k·Q_i·(position 2 of atom i's cached sorted triple) |
| Quadrupolar.UnknownElementAbortsBatch | soprano/properties/nmr/efg.py:383-385 | the first element missing from the table aborts the batch with that element's error |
| Quadrupolar.QConstIgnoresIsotopeList | soprano/properties/nmr/efg.py:387-394 | result, `info` and pass count are the same for every `isotope_list` |
| Quadrupolar.AfterRefreshIgnoresList | soprano/properties/nmr/efg.py:374-394 | the steps after the refresh do not depend on `isotope_list` apart from the warning |
| Quadrupolar.QConstZeroForInactive | soprano/properties/nmr/efg.py:325 | an atom whose isotope has zero quadrupole moment gets constant zero |
| Quadrupolar.QConstFreshSucceeds | soprano/properties/nmr/efg.py:358-408 | fresh tensors, a loaded table and resolvable atoms: success after exactly one pass, with the sorted key freshly written |
| Quadrupolar.QConstFresh | soprano/properties/nmr/efg.py:358-408 | end to end: constant i is k·Q_i·Vzz_i, with Vzz_i position 2 of the Haeberlen-sorted eigenvalues of atom i's symmetrised tensor |
| Quadrupolar.FreshSortedAt | soprano/properties/nmr/efg.py:83-91 | the freshly cached sorted triple of atom i is the Haeberlen sort of its symmetrised tensor's eigenvalues |
| Quadrupolar.MomentWithoutListAt | soprano/properties/nmr/efg.py:387-400 | without a list, atom i's moment in the batch is its own moment lookup |

## Left out

- Eigenvectors and `_evecs_2_quat` (soprano/properties/nmr/utils.py lines 65-73). Eigenvectors are cached as opaque matrices. The quaternion conversion needs a determinant and ASE's `Quaternion`.
- `np.linalg.eigh` is not modelled. It is a parameter, and its correctness is assumed through `IsEigensolver` only where a lemma needs it.
- Loading `nmrdata.json` through `pkgutil` and `json` is file I/O. The table is a given `Option<Table>`.
- The scipy physical constants that make up `k` are not modelled; `k` is a parameter.
- `AtomsProperty.get`, the ASE `Atoms` container and `print` are not part of this model.
  - `get` is taken to call `extract` with the default parameters.
  - The structure is reduced to its chemical symbols, its optional 'efg' array and `info`.
  - The warning on efg.py line 376 is the `warned` flag.
- NaN and infinity are not modelled. A division by zero in asymmetry or skew gives `None` for that atom.
- Haeberlen.ArgSort: NumPy's default argsort leaves the order of equal deviations open. The model fixes the stable order, so on ties the model states one of the outputs NumPy may give.
- EfgDiagonal.Lookup: a cached entry that is not an array of eigenvalue triples is abstracted to the `UnusableCache` error. In the source, NumPy may still index or reduce such a value. For example, an (N,3,3) array under `efg_diagonal_evals_hsort` makes `EFGVzz` return an (N,3) array. The model does not describe those results. The same holds for the derived properties and the quadrupolar constant, which read through it.
- Quadrupolar.AtomMoment: the source looks up `str(iso)`. Isotopes are strings throughout the model, so an integer given in `isotopes` is not distinguished from its decimal string. The element record also holds the fields `iso` and `Q_iso`. When the resolved isotope string is `"iso"` or `"Q_iso"`, the source's `['Q']` lookup on line 397 is applied to a non-record value and raises an uncaught `TypeError`. The model folds that case into `NoIsotopeData` instead of giving it a separate error kind.
- Quadrupolar.EfgQuadrupolarConstant: the source does not check that the 'efg' array has one tensor per atom, and neither does the model. The per-atom success values are stated for a batch whose sorted array has one triple per atom; other lengths fall under `Quadrupolar.Product`'s broadcasting rules.
- `soprano/utils.py` (lattice geometry) is not used by the EFG pipeline and is not part of this model.
- Floating-point rounding is not modelled: all arithmetic is over exact reals.

=== FILE: efg_diagonal.dfy ===
/** The structure seen by the EFG properties, the `_has_efg_check` guard,
    `EFGDiagonal.extract`, and the memoisation protocol every derived
    property follows over the structure's `info` map
    (soprano/properties/nmr/efg.py). */
module EfgDiagonal {
  import opened Outcomes
  import opened Triples
  import opened Tensors
  import opened Haeberlen

  const DiagonalName: string := "efg_diagonal"
  const EvalsKey: string := DiagonalName + "_evals"
  const HsortKey: string := DiagonalName + "_evals_hsort"
  const EvecsKey: string := DiagonalName + "_evecs"

  /** One tensor's eigen-decomposition, as the eigen-solver returns it. */
  datatype Eigen = Eigen(evals: Triple, evecs: Matrix3)

  /** The eigen-solver (`np.linalg.eigh`) is foreign numeric code: the model
      takes it as a parameter and counts how often a batch is diagonalised. */
  type Eigensolver = Matrix3 -> Eigen

  /** What the model assumes of a real eigen-solver when it needs to: on a
      symmetric matrix the eigenvalues come out ascending and sum to the trace. */
  ghost predicate IsEigensolver(eigh: Eigensolver) {
    forall m :: IsSymmetric(m) ==>
      Ascending(eigh(m).evals) && eigh(m).evals.e0 + eigh(m).evals.e1 + eigh(m).evals.e2 == m.Trace()
  }

  /** A value in `info`: an array of eigenvalue triples, an array of
      eigenvector matrices, or anything else the structure happens to hold. */
  datatype InfoValue =
    | TripleArray(triples: seq<Triple>)
    | MatrixArray(matrices: seq<Matrix3>)
    | OtherValue

  type Info = map<string, InfoValue>

  /** The atoms container as the EFG properties see it: the chemical symbols,
      the optional 'efg' per-atom array, and the mutable `info` side-store. */
  datatype Structure = Structure(elements: seq<string>, efg: Option<seq<Matrix3>>, info: Info)

  /** The outcome of one extraction: its value or error, the `info` map
      after the call (the source mutates it even on a later error), and the
      number of times the batch was handed to the diagonaliser. */
  datatype Step<T> = Step(result: Result<T, Error>, info: Info, passes: nat)

  /** Which of the two eigenvalue entries a property reads. */
  datatype Cached = Evals | Hsort {
    function Key(): string {
      if Evals? then EvalsKey else HsortKey
    }
  }

  /** The three cache keys are distinct. */
  lemma KeysDistinct()
    ensures EvalsKey != HsortKey && EvalsKey != EvecsKey && HsortKey != EvecsKey
  {
    assert |EvalsKey| == 18 && |HsortKey| == 24 && |EvecsKey| == 18;
    assert EvalsKey[15] != EvecsKey[15];
  }

  /** `_has_efg_check`: the 'efg' array, or the missing-data error. */
  function HasEfgCheck(s: Structure): (r: Result<seq<Matrix3>, Error>)
    ensures r.Ok? <==> s.efg.Some?
    ensures r.Ok? ==> r.value == s.efg.value
    ensures r.Err? ==> r.error == MissingEfg
  {
    match s.efg
    case Some(a) => Ok(a)
    case None => Err(MissingEfg)
  }

  /** Symmetrise then diagonalise every tensor, in atom order. */
  function Diagonalise(efg: seq<Matrix3>, eigh: Eigensolver): (r: seq<Eigen>)
    ensures |r| == |efg|
    ensures forall i :: 0 <= i < |efg| ==> r[i] == eigh(Symmetrize(efg[i]))
  {
    seq(|efg|, i requires 0 <= i < |efg| => eigh(Symmetrize(efg[i])))
  }

  function EvalsOf(d: seq<Eigen>): (r: seq<Triple>)
    ensures |r| == |d|
    ensures forall i :: 0 <= i < |d| ==> r[i] == d[i].evals
  {
    seq(|d|, i requires 0 <= i < |d| => d[i].evals)
  }

  function EvecsOf(d: seq<Eigen>): (r: seq<Matrix3>)
    ensures |r| == |d|
    ensures forall i :: 0 <= i < |d| ==> r[i] == d[i].evecs
  {
    seq(|d|, i requires 0 <= i < |d| => d[i].evecs)
  }

  /** `after` is `before` with the three diagonalisation entries written for
      `d`, the sorted one being the Haeberlen sort of the plain one, and no
      other key touched. */
  predicate SavedDiagonal(after: Info, before: Info, d: seq<Eigen>) {
    && EvalsKey in after && after[EvalsKey] == TripleArray(EvalsOf(d))
    && HsortKey in after && after[HsortKey] == TripleArray(HaebSortAll(EvalsOf(d)))
    && EvecsKey in after && after[EvecsKey] == MatrixArray(EvecsOf(d))
    && after.Keys == before.Keys + {EvalsKey, HsortKey, EvecsKey}
    && (forall k :: k in before && k != EvalsKey && k != HsortKey && k != EvecsKey ==> after[k] == before[k])
  }

  /** `EFGDiagonal.extract`. Zero tensors cannot be unpacked into the
      (eigenvalues, eigenvectors) pair, which the source reports as an error. */
  function Extract(s: Structure, eigh: Eigensolver, saveInfo: bool): (r: Step<seq<Eigen>>)
    ensures s.efg.None? ==> r == Step(Err(MissingEfg), s.info, 0)
    ensures s.efg.Some? ==> r.passes == 1
    ensures s.efg.Some? ==> (r.result.Ok? <==> |s.efg.value| > 0)
    ensures r.result.Err? ==> r.info == s.info
    ensures r.result.Ok? ==> r.result.value == Diagonalise(s.efg.value, eigh)
    ensures r.result.Ok? && saveInfo ==> SavedDiagonal(r.info, s.info, r.result.value)
    ensures !saveInfo ==> r.info == s.info
  {
    match HasEfgCheck(s)
    case Err(e) => Step(Err(e), s.info, 0)
    case Ok(efg) =>
      if |efg| == 0 then Step(Err(EmptyBatch), s.info, 1)
      else
        var d := Diagonalise(efg, eigh);
        var evals := EvalsOf(d);
        var info :=
          if saveInfo then
            s.info[EvalsKey := TripleArray(evals)]
                  [HsortKey := TripleArray(HaebSortAll(evals))]
                  [EvecsKey := MatrixArray(EvecsOf(d))]
          else s.info;
        KeysDistinct();
        Step(Ok(d), info, 1)
  }

  /** What a fresh diagonalisation caches under `which`. */
  function FreshEntry(which: Cached, efg: seq<Matrix3>, eigh: Eigensolver): seq<Triple> {
    var evals := EvalsOf(Diagonalise(efg, eigh));
    if which.Evals? then evals else HaebSortAll(evals)
  }

  /** The first half of every derived property: call `EFGDiagonal.get`
      (default `save_info`) when the entry for `which` is missing or a
      recalculation is forced, and otherwise do nothing. */
  function Refresh(s: Structure, which: Cached, force: bool, eigh: Eigensolver): (r: Step<()>)
    requires s.efg.Some?
    ensures r.passes == 1 <==> (which.Key() !in s.info || force)
    ensures r.passes == 0 ==> r == Step(Ok(()), s.info, 0)
    ensures r.passes == 1 && |s.efg.value| == 0 ==> r == Step(Err(EmptyBatch), s.info, 1)
    ensures r.passes == 1 && |s.efg.value| > 0 ==>
      r.result.Ok? && SavedDiagonal(r.info, s.info, Diagonalise(s.efg.value, eigh))
  {
    if which.Key() !in s.info || force then
      var d := Extract(s, eigh, true);
      match d.result
      case Ok(_) => Step(Ok(()), d.info, d.passes)
      case Err(e) => Step(Err(e), d.info, d.passes)
    else Step(Ok(()), s.info, 0)
  }

  /** The protocol shared by every derived property: check for 'efg',
      refresh the entry for `which`, then read it from `info`. */
  function Lookup(s: Structure, which: Cached, force: bool, eigh: Eigensolver): (r: Step<seq<Triple>>)
    ensures s.efg.None? ==> r == Step(Err(MissingEfg), s.info, 0)
    ensures s.efg.Some? ==> (r.passes == 1 <==> (which.Key() !in s.info || force))
    ensures r.passes <= 1
    ensures r.passes == 0 ==> r.info == s.info
    ensures r.passes == 0 && s.efg.Some? ==>
      (r.result.Ok? <==> (which.Key() in s.info && s.info[which.Key()].TripleArray?))
    ensures r.passes == 0 && r.result.Ok? ==> r.result.value == s.info[which.Key()].triples
    ensures r.passes == 1 && |s.efg.value| == 0 ==> r.result == Err(EmptyBatch) && r.info == s.info
    ensures r.passes == 1 && |s.efg.value| > 0 ==>
      && r.result == Ok(FreshEntry(which, s.efg.value, eigh))
      && SavedDiagonal(r.info, s.info, Diagonalise(s.efg.value, eigh))
    ensures r.result.Ok? ==> which.Key() in r.info && r.info[which.Key()] == TripleArray(r.result.value)
  {
    match HasEfgCheck(s)
    case Err(e) => Step(Err(e), s.info, 0)
    case Ok(_) =>
      var p := Refresh(s, which, force, eigh);
      var key := which.Key();
      if p.result.Err? then Step(Err(p.result.error), p.info, p.passes)
      else if key in p.info && p.info[key].TripleArray? then Step(Ok(p.info[key].triples), p.info, p.passes)
      else Step(Err(UnusableCache(key)), p.info, p.passes)
  }

  /** Once a lookup succeeds, the same lookup without forcing diagonalises
      nothing, leaves `info` alone and returns the same array. */
  lemma RepeatLookupReusesCache(s: Structure, which: Cached, force: bool, eigh: Eigensolver)
    ensures
      var r1 := Lookup(s, which, force, eigh);
      var r2 := Lookup(s.(info := r1.info), which, false, eigh);
      r1.result.Ok? ==> r2.passes == 0 && r2.info == r1.info && r2.result == r1.result
  {
  }

  /** Compute once, cache three: a lookup that diagonalised leaves both
      eigenvalue entries in place, so a later unforced lookup of either one
      does not diagonalise again. */
  lemma OnePassServesBothEntries(s: Structure, which: Cached, other: Cached, force: bool, eigh: Eigensolver)
    ensures
      var r1 := Lookup(s, which, force, eigh);
      var r2 := Lookup(s.(info := r1.info), other, false, eigh);
      r1.passes == 1 && r1.result.Ok? ==>
        && r2.passes == 0 && r2.info == r1.info
        && r2.result == Ok(FreshEntry(other, s.efg.value, eigh))
  {
  }

  /** Two unforced-after-success lookups diagonalise at most once in total. */
  lemma AtMostOnePassAcrossCalls(s: Structure, which: Cached, other: Cached, force: bool, eigh: Eigensolver)
    ensures
      var r1 := Lookup(s, which, force, eigh);
      var r2 := Lookup(s.(info := r1.info), other, false, eigh);
      r1.result.Ok? && (r1.passes == 1 || other == which) ==> r1.passes + r2.passes <= 1
  {
  }

  /** With a real eigen-solver every freshly cached triple, sorted or not,
      has the mean of its raw tensor's diagonal: symmetrising keeps the trace
      and the Haeberlen sort only rearranges. */
  lemma FreshEntryMeanIsTraceThird(which: Cached, efg: seq<Matrix3>, eigh: Eigensolver, i: nat)
    requires IsEigensolver(eigh)
    requires i < |efg|
    ensures FreshEntry(which, efg, eigh)[i].Mean() == efg[i].Trace() / 3.0
  {
  }
}

=== FILE: efg_properties.dfy ===
/** The derived EFG properties `EFGVzz`, `EFGAnisotropy`,
    `EFGReducedAnisotropy`, `EFGAsymmetry`, `EFGSpan` and `EFGSkew`
    (soprano/properties/nmr/efg.py). Each one is the shared lookup protocol
    on its cache entry followed by a per-atom formula. */
module EfgProperties {
  import opened Outcomes
  import opened Triples
  import opened Haeberlen
  import Invariants
  import opened EfgDiagonal

  /** A per-atom formula applied across the batch, order preserved. */
  function PerAtom<U>(a: seq<Triple>, f: Triple -> U): (r: seq<U>)
    ensures |r| == |a|
    ensures forall i :: 0 <= i < |a| ==> r[i] == f(a[i])
  {
    seq(|a|, i requires 0 <= i < |a| => f(a[i]))
  }

  /** The lookup of `which`, then `f` on every atom of the array it read. */
  function Derive<U>(s: Structure, which: Cached, force: bool, eigh: Eigensolver, f: Triple -> U): Step<seq<U>> {
    var l := Lookup(s, which, force, eigh);
    match l.result
    case Ok(a) => Step(Ok(PerAtom(a, f)), l.info, l.passes)
    case Err(e) => Step(Err(e), l.info, l.passes)
  }

  /** The memoisation contract of a derived property reading `which`:
      fail first without 'efg'; diagonalise (once) exactly when the entry is
      missing or `force` is set; otherwise leave `info` untouched; succeed
      on a cache hit exactly when the entry is an eigenvalue array, and
      after a pass exactly when the batch is non-empty; and on success
      return `f` of each atom's cached triple. */
  predicate Memoised<U(==)>(s: Structure, which: Cached, force: bool, f: Triple -> U, r: Step<seq<U>>) {
    && (s.efg.None? ==> r == Step(Err(MissingEfg), s.info, 0))
    && (s.efg.Some? ==> (r.passes == 1 <==> (which.Key() !in s.info || force)))
    && r.passes <= 1
    && (r.passes == 0 ==> r.info == s.info)
    && (s.efg.Some? && r.passes == 0 ==>
          (r.result.Ok? <==> (which.Key() in s.info && s.info[which.Key()].TripleArray?)))
    && (s.efg.Some? && r.passes == 1 ==> (r.result.Ok? <==> |s.efg.value| > 0))
    && (r.result.Ok? ==>
          && which.Key() in r.info && r.info[which.Key()].TripleArray?
          && |r.result.value| == |r.info[which.Key()].triples|
          && forall i :: 0 <= i < |r.result.value| ==>
               r.result.value[i] == f(r.info[which.Key()].triples[i]))
  }

  function Vzz(h: Triple): real { h.e2 }
  function FullAnisotropy(h: Triple): real { Invariants.Anisotropy(h, false) }
  function ReducedAnisotropy(h: Triple): real { Invariants.Anisotropy(h, true) }

  /** `EFGVzz.extract`: position 2 of each Haeberlen-sorted triple. */
  function EfgVzz(s: Structure, force: bool, eigh: Eigensolver): (r: Step<seq<real>>)
    ensures Memoised(s, Hsort, force, Vzz, r)
    ensures r.info == Lookup(s, Hsort, force, eigh).info
  {
    Derive(s, Hsort, force, eigh, Vzz)
  }

  /** `EFGAnisotropy.extract`. */
  function EfgAnisotropy(s: Structure, force: bool, eigh: Eigensolver): (r: Step<seq<real>>)
    ensures Memoised(s, Hsort, force, FullAnisotropy, r)
    ensures r.info == Lookup(s, Hsort, force, eigh).info
  {
    Derive(s, Hsort, force, eigh, FullAnisotropy)
  }

  /** `EFGReducedAnisotropy.extract`. */
  function EfgReducedAnisotropy(s: Structure, force: bool, eigh: Eigensolver): (r: Step<seq<real>>)
    ensures Memoised(s, Hsort, force, ReducedAnisotropy, r)
    ensures r.info == Lookup(s, Hsort, force, eigh).info
  {
    Derive(s, Hsort, force, eigh, ReducedAnisotropy)
  }

  /** `EFGAsymmetry.extract`; `None` where NumPy would divide by zero. */
  function EfgAsymmetry(s: Structure, force: bool, eigh: Eigensolver): (r: Step<seq<Option<real>>>)
    ensures Memoised(s, Hsort, force, Invariants.Asymmetry, r)
    ensures r.info == Lookup(s, Hsort, force, eigh).info
  {
    Derive(s, Hsort, force, eigh, Invariants.Asymmetry)
  }

  /** `EFGSpan.extract`, on the plain (ascending) eigenvalues. */
  function EfgSpan(s: Structure, force: bool, eigh: Eigensolver): (r: Step<seq<real>>)
    ensures Memoised(s, Evals, force, Invariants.Span, r)
    ensures r.info == Lookup(s, Evals, force, eigh).info
  {
    Derive(s, Evals, force, eigh, Invariants.Span)
  }

  /** `EFGSkew.extract`, on the plain eigenvalues. */
  function EfgSkew(s: Structure, force: bool, eigh: Eigensolver): (r: Step<seq<Option<real>>>)
    ensures Memoised(s, Evals, force, Invariants.Skew, r)
    ensures r.info == Lookup(s, Evals, force, eigh).info
  {
    Derive(s, Evals, force, eigh, Invariants.Skew)
  }

  /** A freshly computed Vzz is position 2 of the Haeberlen-sorted
      eigenvalues of the symmetrised tensor: an eigenvalue farthest from the
      isotropic value. */
  lemma FreshVzzIsFarthest(s: Structure, eigh: Eigensolver, i: nat)
    requires s.efg.Some? && i < |s.efg.value|
    ensures
      var v := EfgVzz(s, true, eigh);
      var ev := eigh(Tensors.Symmetrize(s.efg.value[i])).evals;
      && v.result.Ok?
      && v.result.value[i] == HaebSort(ev).e2
      && forall j :: 0 <= j < 3 ==> Abs(ev.At(j) - ev.Mean()) <= Abs(v.result.value[i] - ev.Mean())
  {
  }

  /** Every freshly computed asymmetry that is defined lies in [0, 1]. */
  lemma FreshAsymmetryInUnit(s: Structure, eigh: Eigensolver, i: nat)
    requires s.efg.Some? && i < |s.efg.value|
    ensures
      var a := EfgAsymmetry(s, true, eigh);
      && a.result.Ok?
      && (a.result.value[i].Some? ==> 0.0 <= a.result.value[i].value <= 1.0)
  {
    var ev := eigh(Tensors.Symmetrize(s.efg.value[i])).evals;
    assert FreshEntry(Hsort, s.efg.value, eigh)[i] == HaebSort(ev);
    HaebSortIsHaeberlen(ev);
    Invariants.AsymmetryBounds(HaebSort(ev));
  }

  /** A property that keys on the sorted entry and one that keys on the
      plain entry share one diagonalisation: after Vzz computed it, span
      does not recompute, and vice versa. */
  lemma VzzThenSpanDiagonalisesOnce(s: Structure, force: bool, eigh: Eigensolver)
    ensures
      var r1 := EfgVzz(s, force, eigh);
      var r2 := EfgSpan(s.(info := r1.info), false, eigh);
      r1.result.Ok? && r1.passes == 1 ==> r2.passes == 0 && r2.info == r1.info
  {
  }

  lemma SpanThenVzzDiagonalisesOnce(s: Structure, force: bool, eigh: Eigensolver)
    ensures
      var r1 := EfgSpan(s, force, eigh);
      var r2 := EfgVzz(s.(info := r1.info), false, eigh);
      r1.result.Ok? && r1.passes == 1 ==> r2.passes == 0 && r2.info == r1.info
  {
  }

  /** Forcing recalculation diagonalises exactly once per call, every call. */
  lemma ForcedCallsAlwaysDiagonalise(s: Structure, eigh: Eigensolver)
    requires s.efg.Some?
    ensures
      var r1 := EfgVzz(s, true, eigh);
      var r2 := EfgVzz(s.(info := r1.info), true, eigh);
      r1.passes == 1 && r2.passes == 1
  {
  }
}

=== FILE: haeberlen.dfy ===
/** The Haeberlen ordering of an eigenvalue triple (soprano/properties/nmr/utils.py,
    `_haeb_sort`): an ascending argsort of the deviations from the isotropic
    value, reindexed by [1, 0, 2]. */
module Haeberlen {
  import opened Triples

  /** An ordering of the positions 0, 1, 2: the result of an argsort. */
  datatype Order = Order(i0: nat, i1: nat, i2: nat)

  predicate IsPermutation(o: Order) {
    o.i0 < 3 && o.i1 < 3 && o.i2 < 3 &&
    o.i0 != o.i1 && o.i1 != o.i2 && o.i0 != o.i2
  }

  /** `o` lists the positions of `d` by ascending key, equal keys keeping
      their original relative order. */
  predicate StablySorts(o: Order, d: Triple)
    requires IsPermutation(o)
  {
    d.At(o.i0) <= d.At(o.i1) <= d.At(o.i2) &&
    (d.At(o.i0) == d.At(o.i1) ==> o.i0 < o.i1) &&
    (d.At(o.i1) == d.At(o.i2) ==> o.i1 < o.i2) &&
    (d.At(o.i0) == d.At(o.i2) ==> o.i0 < o.i2)
  }

  /** The absolute deviations |e - iso| of a triple from its mean. */
  function Deviations(t: Triple): Triple {
    var m := t.Mean();
    Triple(Abs(t.e0 - m), Abs(t.e1 - m), Abs(t.e2 - m))
  }

  /** Ascending argsort of three keys. NumPy's default argsort does not
      promise an order between equal keys; this model fixes the stable one. */
  function ArgSort(d: Triple): (o: Order)
    ensures IsPermutation(o)
    ensures StablySorts(o, d)
  {
    if d.e0 <= d.e1 then
      if d.e1 <= d.e2 then Order(0, 1, 2)
      else if d.e0 <= d.e2 then Order(0, 2, 1)
      else Order(2, 0, 1)
    else
      if d.e0 <= d.e2 then Order(1, 0, 2)
      else if d.e1 <= d.e2 then Order(1, 2, 0)
      else Order(2, 1, 0)
  }

  /** The stable argsort is the only ordering with its two properties, so the
      tie-break above is a complete specification of the order. */
  lemma ArgSortUnique(o: Order, d: Triple)
    requires IsPermutation(o) && StablySorts(o, d)
    ensures o == ArgSort(d)
  {
  }

  /** Position 1 closest to the mean, position 0 next, position 2 farthest. */
  predicate IsHaeberlen(h: Triple) {
    var m := h.Mean();
    Abs(h.e1 - m) <= Abs(h.e0 - m) <= Abs(h.e2 - m)
  }

  /** The argsort reindexed by [1, 0, 2]: `t[o[1]], t[o[0]], t[o[2]]`. */
  function Reindex(t: Triple, o: Order): Triple
    requires IsPermutation(o)
  {
    Triple(t.At(o.i1), t.At(o.i0), t.At(o.i2))
  }

  lemma ReindexPermutes(t: Triple, o: Order)
    requires IsPermutation(o)
    ensures Reindex(t, o).Elems() == t.Elems()
  {
    var (a, b, c) := (t.e0, t.e1, t.e2);
    if o == Order(1, 0, 2) {
    } else if o == Order(0, 1, 2) {
      SwapElems(a, b, c);
    } else if o == Order(2, 1, 0) {
      RotateElems(a, b, c);
    } else if o == Order(0, 2, 1) {
      RotateElems(a, b, c);
      RotateElems(b, c, a);
    } else if o == Order(1, 2, 0) {
      RotateElems(a, b, c);
      SwapElems(b, c, a);
    } else {
      assert o == Order(2, 0, 1);
      RotateElems(a, b, c);
      RotateElems(b, c, a);
      SwapElems(c, a, b);
    }
  }

  /** `_haeb_sort` on one triple. */
  function HaebSort(t: Triple): (r: Triple)
    ensures r.Mean() == t.Mean()
    ensures Abs(r.e1 - t.Mean()) <= Abs(r.e0 - t.Mean()) <= Abs(r.e2 - t.Mean())
  {
    var o := ArgSort(Deviations(t));
    ReindexPermutes(t, o);
    SameElemsSameMean(t, Reindex(t, o));
    Reindex(t, o)
  }

  /** Sorting only rearranges: the output holds the input's eigenvalues. */
  lemma HaebSortPermutes(t: Triple)
    ensures HaebSort(t).Elems() == t.Elems()
  {
    ReindexPermutes(t, ArgSort(Deviations(t)));
  }

  /** The sorted triple is in Haeberlen order about its own mean. */
  lemma HaebSortIsHaeberlen(t: Triple)
    ensures IsHaeberlen(HaebSort(t))
  {
  }

  /** Position 2 of the sorted triple (Vzz, for an EFG) is an eigenvalue
      farthest from the isotropic value. */
  lemma LastIsFarthest(t: Triple)
    ensures forall j :: 0 <= j < 3 ==> Abs(t.At(j) - t.Mean()) <= Abs(HaebSort(t).e2 - t.Mean())
  {
  }

  /** `_haeb_sort` over a batch, index-aligned with its input. */
  function HaebSortAll(evals: seq<Triple>): (r: seq<Triple>)
    ensures |r| == |evals|
    ensures forall i :: 0 <= i < |evals| ==> r[i] == HaebSort(evals[i])
  {
    seq(|evals|, i requires 0 <= i < |evals| => HaebSort(evals[i]))
  }

  /** A triple already in Haeberlen order is left as it is: sorting twice is
      sorting once. Equal deviations at positions 0 and 1 force the two
      values to be equal, so the tie-break cannot swap distinct values. */
  lemma HaebSortIdempotent(t: Triple)
    ensures HaebSort(HaebSort(t)) == HaebSort(t)
  {
  }

  /** Adding a constant commutes with the sort: deviations do not change. */
  lemma HaebSortShift(t: Triple, k: real)
    ensures HaebSort(Shift(t, k)) == Shift(HaebSort(t), k)
  {
    var u := Shift(t, k);
    assert u.Mean() == t.Mean() + k;
    assert Deviations(u) == Deviations(t);
    var o := ArgSort(Deviations(t));
    assert HaebSort(u) == Reindex(u, o);
    assert Reindex(u, o) == Shift(Reindex(t, o), k);
  }

  /** Reflecting about the mean commutes with the sort. */
  lemma HaebSortReflect(t: Triple)
    ensures HaebSort(Reflect(t)) == Reflect(HaebSort(t))
  {
    var u := Reflect(t);
    var m := t.Mean();
    assert u.Mean() == m;
    assert u.e0 - m == -(t.e0 - m) && u.e1 - m == -(t.e1 - m) && u.e2 - m == -(t.e2 - m);
    assert Deviations(u) == Deviations(t);
    var o := ArgSort(Deviations(t));
    assert HaebSort(u) == Reindex(u, o);
    var h := Reindex(t, o);
    assert h.Mean() == m;
    assert Reflect(h) == Reindex(u, o);
  }
}

=== FILE: invariants.dfy ===
/** The closed-form invariants of an eigenvalue triple
    (soprano/properties/nmr/utils.py: `_anisotropy`, `_asymmetry`, `_span`,
    `_skew`), for one atom. A division by zero, which NumPy turns into an
    infinite or undefined value, is `None`. */
module Invariants {
  import opened Outcomes
  import opened Triples
  import opened Haeberlen

  /** `_anisotropy` of a Haeberlen-ordered triple: the unique-axis component
      minus the average of the other two, scaled by 2/3 when `reduced`. */
  function Anisotropy(h: Triple, reduced: bool): real {
    var f := if reduced then 2.0 / 3.0 else 1.0;
    (h.e2 - (h.e0 + h.e1) / 2.0) * f
  }

  /** `_asymmetry`: (position 1 - position 0) over the reduced anisotropy. */
  function Asymmetry(h: Triple): Option<real> {
    var d := Anisotropy(h, true);
    if d == 0.0 then None else Some((h.e1 - h.e0) / d)
  }

  /** `np.amax` of one triple. */
  function Max(t: Triple): (r: real)
    ensures r in t.Elems()
    ensures t.e0 <= r && t.e1 <= r && t.e2 <= r
  {
    if t.e0 >= t.e1 && t.e0 >= t.e2 then t.e0
    else if t.e1 >= t.e2 then t.e1
    else t.e2
  }

  /** `np.amin` of one triple. */
  function Min(t: Triple): (r: real)
    ensures r in t.Elems()
    ensures r <= t.e0 && r <= t.e1 && r <= t.e2
  {
    if t.e0 <= t.e1 && t.e0 <= t.e2 then t.e0
    else if t.e1 <= t.e2 then t.e1
    else t.e2
  }

  /** `np.median` of one triple: the middle value once sorted. */
  function Median(t: Triple): real {
    Sort3(t).e1
  }

  /** `_span`: largest minus smallest eigenvalue. */
  function Span(t: Triple): (r: real)
    ensures r >= 0.0
    ensures forall i :: 0 <= i < 3 ==> Min(t) <= t.At(i) <= Min(t) + r
  {
    Max(t) - Min(t)
  }

  /** `_skew`: 3 (median - mean) / span. */
  function Skew(t: Triple): Option<real> {
    var s := Span(t);
    if s == 0.0 then None else Some(3.0 * (Median(t) - t.Mean()) / s)
  }

  // ---------------------------------------------------------------------
  // Anisotropy

  /** The reduced anisotropy is exactly two thirds of the full one. */
  lemma ReducedIsTwoThirds(h: Triple)
    ensures Anisotropy(h, true) == 2.0 / 3.0 * Anisotropy(h, false)
  {
  }

  /** Anisotropy measures how far the unique axis lies from the isotropic
      value: 3/2 of that distance, or exactly it when reduced. */
  lemma AnisotropyIsUniqueAxisDeviation(h: Triple)
    ensures Anisotropy(h, false) == 3.0 / 2.0 * (h.e2 - h.Mean())
    ensures Anisotropy(h, true) == h.e2 - h.Mean()
  {
  }

  /** Positions 0 and 1 enter only through their sum. */
  lemma AnisotropySwapInvariant(h: Triple, reduced: bool)
    ensures Anisotropy(Triple(h.e1, h.e0, h.e2), reduced) == Anisotropy(h, reduced)
  {
  }

  /** A common offset of all three eigenvalues does not change anisotropy. */
  lemma AnisotropyShiftInvariant(h: Triple, k: real, reduced: bool)
    ensures Anisotropy(Shift(h, k), reduced) == Anisotropy(h, reduced)
  {
  }

  /** Reflection about the mean negates anisotropy. */
  lemma AnisotropyReflect(h: Triple, reduced: bool)
    ensures Anisotropy(Reflect(h), reduced) == -Anisotropy(h, reduced)
  {
  }

  /** For a Haeberlen-ordered triple the reduced anisotropy bounds the
      deviation of every eigenvalue from the mean: it is the largest one. */
  lemma AnisotropyIsLargestDeviation(h: Triple)
    requires IsHaeberlen(h)
    ensures Abs(Anisotropy(h, true)) == Abs(h.e2 - h.Mean())
    ensures forall i :: 0 <= i < 3 ==> Abs(h.At(i) - h.Mean()) <= Abs(Anisotropy(h, true))
  {
  }

  // ---------------------------------------------------------------------
  // Asymmetry

  /** `n / d` lies in [0, 1] when `n` lies between 0 and `d`. */
  lemma QuotientInUnit(n: real, d: real)
    requires d != 0.0
    requires (0.0 <= n <= d) || (d <= n <= 0.0)
    ensures 0.0 <= n / d <= 1.0
  {
  }

  /** Negating both sides of a quotient leaves it unchanged. */
  lemma NegateQuotient(n: real, d: real)
    requires d != 0.0
    ensures (-n) / (-d) == n / d
  {
  }

  /** The asymmetry of a Haeberlen-ordered triple lies in [0, 1]. */
  lemma AsymmetryBounds(h: Triple)
    requires IsHaeberlen(h)
    ensures Asymmetry(h).Some? ==> 0.0 <= Asymmetry(h).value <= 1.0
  {
    var m := h.Mean();
    var d0, d1, d2 := h.e0 - m, h.e1 - m, h.e2 - m;
    assert d0 + d1 + d2 == 0.0;
    var d := Anisotropy(h, true);
    assert d == d2;
    if d != 0.0 {
      // The numerator e1 - e0 == d1 - d0 lies between 0 and d2.
      if d2 > 0.0 {
        assert d0 <= 0.0;
        assert d1 <= 0.0;
        assert 0.0 <= d1 - d0 <= d2;
      } else {
        assert d0 >= 0.0;
        assert d1 >= 0.0;
        assert d2 <= d1 - d0 <= 0.0;
      }
      QuotientInUnit(h.e1 - h.e0, d);
    }
  }

  /** For a Haeberlen-ordered triple the asymmetry is undefined exactly when
      the tensor is isotropic (all three eigenvalues equal). */
  lemma AsymmetryUndefinedIffIsotropic(h: Triple)
    requires IsHaeberlen(h)
    ensures Asymmetry(h).None? <==> (h.e0 == h.e1 && h.e1 == h.e2)
  {
  }

  /** Asymmetry is a pure shape measure: unchanged by a common offset and by
      reflection about the mean. */
  lemma AsymmetryShiftReflectInvariant(h: Triple, k: real)
    ensures Asymmetry(Shift(h, k)) == Asymmetry(h)
    ensures Asymmetry(Reflect(h)) == Asymmetry(h)
  {
    AnisotropyReflect(h, true);
    var d := Anisotropy(h, true);
    if d != 0.0 {
      var r := Reflect(h);
      assert r.e1 - r.e0 == -(h.e1 - h.e0);
      NegateQuotient(h.e1 - h.e0, d);
    }
  }

  // ---------------------------------------------------------------------
  // Span

  /** Span is the range of the sorted triple: `np.amax - np.amin` agrees
      with the definition through sorting. */
  lemma SpanIsSortedRange(t: Triple)
    ensures Max(t) == Sort3(t).e2 && Min(t) == Sort3(t).e0
    ensures Span(t) == Sort3(t).e2 - Sort3(t).e0
  {
  }

  /** Span depends only on the multiset of eigenvalues, not their order. */
  lemma SpanPermutationInvariant(t: Triple, u: Triple)
    requires t.Elems() == u.Elems()
    ensures Span(t) == Span(u)
  {
    SpanIsSortedRange(t);
    SpanIsSortedRange(u);
    Sort3PermutationInvariant(t, u);
  }

  /** Span is unchanged by a common offset and by reflection about the mean. */
  lemma SpanShiftReflectInvariant(t: Triple, k: real)
    ensures Span(Shift(t, k)) == Span(t)
    ensures Span(Reflect(t)) == Span(t)
  {
  }

  /** The span of the Haeberlen-sorted eigenvalues is the span of the raw
      ones: reading span from either cache entry gives the same value. */
  lemma SpanOfHaeberlen(t: Triple)
    ensures Span(HaebSort(t)) == Span(t)
  {
    HaebSortPermutes(t);
    SpanPermutationInvariant(HaebSort(t), t);
  }

  // ---------------------------------------------------------------------
  // Skew

  /** The median is a permutation invariant. */
  lemma MedianPermutationInvariant(t: Triple, u: Triple)
    requires t.Elems() == u.Elems()
    ensures Median(t) == Median(u)
  {
  }

  /** Skew depends only on the multiset of eigenvalues. */
  lemma SkewPermutationInvariant(t: Triple, u: Triple)
    requires t.Elems() == u.Elems()
    ensures Skew(t) == Skew(u)
  {
    SpanPermutationInvariant(t, u);
    MedianPermutationInvariant(t, u);
    SameElemsSameMean(t, u);
  }

  /** Skew lies in [-1, 1] whenever it is defined. */
  lemma SkewBounds(t: Triple)
    ensures Skew(t).Some? ==> -1.0 <= Skew(t).value <= 1.0
  {
    var s := Sort3(t);
    Sort3Permutes(t);
    SpanIsSortedRange(t);
    SameElemsSameMean(t, s);
    var sp := Span(t);
    if sp != 0.0 {
      // 3 (median - mean) == (b - a) - (c - b) and span == (b - a) + (c - b).
      var n := 3.0 * (Median(t) - t.Mean());
      assert n == (s.e1 - s.e0) - (s.e2 - s.e1);
      assert sp == (s.e1 - s.e0) + (s.e2 - s.e1);
      SymmetricQuotient(n, sp);
    }
  }

  /** `n / d` lies in [-1, 1] when |n| <= d. */
  lemma SymmetricQuotient(n: real, d: real)
    requires d > 0.0
    requires -d <= n <= d
    ensures -1.0 <= n / d <= 1.0
  {
  }

  /** The median of the reflected triple is the reflected median. */
  lemma MedianReflect(t: Triple)
    ensures Reflect(t).Mean() == t.Mean()
    ensures Median(Reflect(t)) == 2.0 * t.Mean() - Median(t)
  {
  }

  /** Reflecting the eigenvalues about their mean negates the skew. */
  lemma SkewReflect(t: Triple)
    ensures Skew(t).Some? <==> Skew(Reflect(t)).Some?
    ensures Skew(t).Some? ==> Skew(Reflect(t)).value == -Skew(t).value
  {
    var r := Reflect(t);
    MedianReflect(t);
    SpanShiftReflectInvariant(t, 0.0);
    var sp := Span(t);
    if sp != 0.0 {
      var n := 3.0 * (Median(t) - t.Mean());
      assert 3.0 * (Median(r) - r.Mean()) == -n;
      NegateNumerator(n, sp);
    }
  }

  lemma NegateNumerator(n: real, d: real)
    requires d != 0.0
    ensures (-n) / d == -(n / d)
  {
  }

  /** Skew is undefined exactly for an isotropic triple. */
  lemma SkewUndefinedIffIsotropic(t: Triple)
    ensures Skew(t).None? <==> (t.e0 == t.e1 && t.e1 == t.e2)
  {
  }

  // ---------------------------------------------------------------------
  // A worked case

  /** An axially symmetric traceless tensor with ascending eigenvalues
      (-2, 1, 1): the Haeberlen order puts -2 last, the anisotropy is -3 and
      the asymmetry is 0. */
  lemma AxialTensorExample()
    ensures HaebSort(Triple(-2.0, 1.0, 1.0)) == Triple(1.0, 1.0, -2.0)
    ensures Anisotropy(HaebSort(Triple(-2.0, 1.0, 1.0)), false) == -3.0
    ensures Asymmetry(HaebSort(Triple(-2.0, 1.0, 1.0))) == Some(0.0)
    ensures Span(Triple(-2.0, 1.0, 1.0)) == 3.0
    ensures Skew(Triple(-2.0, 1.0, 1.0)) == Some(1.0)
  {
  }
}

=== FILE: nmr_data.dfy ===
/** The reference NMR table: element symbol to default isotope, optional
    most common quadrupole-active isotope, and per-isotope quadrupole moment.
    Loading it (a bundled JSON file) is I/O and is not modelled: the table is
    a given `Option`, `None` when the load failed. */
module NmrData {
  import opened Outcomes

  /** One element's record. Isotope identifiers are the strings the source
      obtains with `str(...)`. `moments` holds the isotopes whose record has
      a quadrupole moment `Q`. */
  datatype ElementData = ElementData(
    iso: string,                  // the default isotope
    qIso: Option<string>,         // most common quadrupole-active isotope, if any
    moments: map<string, real>)   // isotope -> quadrupole moment Q

  type Table = map<string, ElementData>

  /** `_get_nmr_data`: the table when it loaded, the "not available" error
      otherwise; never a missing table. */
  function GetNmrData(data: Option<Table>): (r: Result<Table, Error>)
    ensures r.Ok? <==> data.Some?
    ensures r.Ok? ==> r.value == data.value
    ensures r.Err? ==> r.error == NmrDataUnavailable
  {
    match data
    case Some(t) => Ok(t)
    case None => Err(NmrDataUnavailable)
  }
}

=== FILE: outcomes.dfy ===
/** Failure-carrying datatypes shared by the whole pipeline, and the
    taxonomy of the runtime errors the EFG properties raise. */
module Outcomes {

  datatype Option<T> = None | Some(value: T)

  datatype Result<T, E> = Ok(value: T) | Err(error: E)

  /** Every way an EFG property extraction can abort. Each aborts the whole
      batch: no partial per-atom result is ever returned. */
  datatype Error =
    | MissingEfg                                  // the structure has no 'efg' array
    | EmptyBatch                                  // unpacking the eigen-decompositions of zero tensors
    | NmrDataUnavailable                          // the reference table failed to load
    | NoElementData(element: string)              // element absent from the reference table
    | NoIsotopeData(isotope: string, element: string) // resolved isotope absent for the element
    | UnusableCache(key: string)                  // an info entry that is not an eigenvalue array
    | ShapeMismatch                               // moments and Vzz arrays cannot be broadcast
}

=== FILE: quadrupolar.dfy ===
/** `EFGQuadrupolarConstant.extract` (soprano/properties/nmr/efg.py):
    per-atom isotope resolution against the reference table, the quadrupole
    moment lookup, and the product k * Q * Vzz. The conversion factor k, a
    product of physical constants, is a parameter. */
module Quadrupolar {
  import opened Outcomes
  import opened Triples
  import opened NmrData
  import opened EfgDiagonal
  import EfgProperties
  import Haeberlen
  import Tensors

  /** The isotope one atom of element `e` is given, as the code resolves it:
      the element's entry in `isotopes`, else the most common
      quadrupole-active isotope when `useQIsotopes` is set and the table
      names one, else the table's default. The atom's `isotope_list` item
      `entry` is assigned first and then always overwritten, so it never
      decides anything. */
  function ResolveIsotope(e: string, data: ElementData, entry: Option<string>,
                          isotopes: map<string, string>, useQIsotopes: bool): (iso: string)
    ensures e in isotopes ==> iso == isotopes[e]
    ensures e !in isotopes && useQIsotopes && data.qIso.Some? ==> iso == data.qIso.value
    ensures e !in isotopes && !(useQIsotopes && data.qIso.Some?) ==> iso == data.iso
  {
    if e in isotopes then isotopes[e]
    else if useQIsotopes && data.qIso.Some? then data.qIso.value
    else data.iso
  }

  /** The precedence the class documentation describes: a non-`None`
      `isotope_list` item overrides everything else. The model does not use
      it; it is the reference the code is compared with. */
  function ResolveIsotopeAsDocumented(e: string, data: ElementData, entry: Option<string>,
                                      isotopes: map<string, string>, useQIsotopes: bool): (iso: string)
    ensures entry.Some? ==> iso == entry.value
    ensures entry.None? ==> iso == ResolveIsotope(e, data, None, isotopes, useQIsotopes)
  {
    match entry
    case Some(x) => x
    case None => ResolveIsotope(e, data, None, isotopes, useQIsotopes)
  }

  /** The code agrees with its documentation on a listed isotope only when
      that isotope is the one the other layers would have chosen anyway. */
  lemma ListEntryHonouredOnlyByCoincidence(e: string, data: ElementData, x: string,
                                           isotopes: map<string, string>, useQIsotopes: bool)
    ensures ResolveIsotope(e, data, Some(x), isotopes, useQIsotopes) ==
              ResolveIsotopeAsDocumented(e, data, Some(x), isotopes, useQIsotopes)
            <==> x == ResolveIsotope(e, data, None, isotopes, useQIsotopes)
  {
  }

  /** A witness that the documented override does not hold: hydrogen with
      default isotope 1, `isotopes = {"H": "2"}` and an `isotope_list` item
      "3" resolves to "2", where the documentation promises "3". */
  lemma DocumentedOverrideFails()
    ensures
      var h := ElementData("1", None, map["1" := 0.0, "2" := 0.2860, "3" := 0.0]);
      && ResolveIsotopeAsDocumented("H", h, Some("3"), map["H" := "2"], false) == "3"
      && ResolveIsotope("H", h, Some("3"), map["H" := "2"], false) == "2"
  {
  }

  /** One atom's quadrupole moment, or the error that aborts the batch. */
  function AtomMoment(e: string, table: Table, entry: Option<string>,
                      isotopes: map<string, string>, useQIsotopes: bool): (r: Result<real, Error>)
    ensures e !in table ==> r == Err(NoElementData(e))
    ensures e in table ==>
      var iso := ResolveIsotope(e, table[e], entry, isotopes, useQIsotopes);
      && (r.Ok? <==> iso in table[e].moments)
      && (r.Ok? ==> r.value == table[e].moments[iso])
      && (r.Err? ==> r.error == NoIsotopeData(iso, e))
  {
    if e !in table then Err(NoElementData(e))
    else
      var iso := ResolveIsotope(e, table[e], entry, isotopes, useQIsotopes);
      if iso in table[e].moments then Ok(table[e].moments[iso])
      else Err(NoIsotopeData(iso, e))
  }

  /** The moments of all atoms in order, stopping at the first atom that
      fails. */
  function Moments(elems: seq<string>, entries: seq<Option<string>>, table: Table,
                   isotopes: map<string, string>, useQIsotopes: bool): (r: Result<seq<real>, Error>)
    requires |entries| == |elems|
    ensures r.Ok? <==> forall j :: 0 <= j < |elems| ==>
      AtomMoment(elems[j], table, entries[j], isotopes, useQIsotopes).Ok?
    ensures r.Ok? ==> |r.value| == |elems| && forall j :: 0 <= j < |elems| ==>
      r.value[j] == AtomMoment(elems[j], table, entries[j], isotopes, useQIsotopes).value
  {
    if |elems| == 0 then Ok([])
    else
      match AtomMoment(elems[0], table, entries[0], isotopes, useQIsotopes)
      case Err(e) => Err(e)
      case Ok(q) =>
        var rest := Moments(elems[1..], entries[1..], table, isotopes, useQIsotopes);
        if rest.Err? then rest
        else
          assert forall j :: 1 <= j < |elems| ==> elems[1..][j - 1] == elems[j] && entries[1..][j - 1] == entries[j];
          Ok([q] + rest.value)
  }

  /** The batch error is the error of the first failing atom, whatever the
      atoms after it hold. */
  lemma {:induction false} FirstFailureDecides(elems: seq<string>, entries: seq<Option<string>>, table: Table,
                                              isotopes: map<string, string>, useQIsotopes: bool, j: nat)
    requires |entries| == |elems| && j < |elems|
    requires AtomMoment(elems[j], table, entries[j], isotopes, useQIsotopes).Err?
    requires forall i :: 0 <= i < j ==> AtomMoment(elems[i], table, entries[i], isotopes, useQIsotopes).Ok?
    ensures Moments(elems, entries, table, isotopes, useQIsotopes) ==
            Err(AtomMoment(elems[j], table, entries[j], isotopes, useQIsotopes).error)
  {
    if j > 0 {
      forall i | 0 <= i < j - 1
        ensures AtomMoment(elems[1..][i], table, entries[1..][i], isotopes, useQIsotopes).Ok?
      {
        assert elems[1..][i] == elems[i + 1] && entries[1..][i] == entries[i + 1];
      }
      FirstFailureDecides(elems[1..], entries[1..], table, isotopes, useQIsotopes, j - 1);
      assert elems[1..][j - 1] == elems[j] && entries[1..][j - 1] == entries[j];
    }
  }

  /** The `isotope_list` items never change any atom's moment. */
  lemma {:induction false} MomentsIgnoreEntries(elems: seq<string>, en1: seq<Option<string>>, en2: seq<Option<string>>,
                                               table: Table, isotopes: map<string, string>, useQIsotopes: bool)
    requires |en1| == |elems| && |en2| == |elems|
    ensures Moments(elems, en1, table, isotopes, useQIsotopes) == Moments(elems, en2, table, isotopes, useQIsotopes)
  {
    if |elems| > 0 {
      MomentsIgnoreEntries(elems[1..], en1[1..], en2[1..], table, isotopes, useQIsotopes);
    }
  }

  /** An `isotope_list` is discarded, with a warning, when its length is not
      the number of atoms. */
  function ListWarning(isotopeList: Option<seq<Option<string>>>, n: nat): bool {
    isotopeList.Some? && |isotopeList.value| != n
  }

  /** The per-atom `isotope_list` items after validation; no item where
      there is no (valid) list. */
  function Entries(isotopeList: Option<seq<Option<string>>>, n: nat): (r: seq<Option<string>>)
    ensures |r| == n
    ensures isotopeList.None? || ListWarning(isotopeList, n) ==> forall i :: 0 <= i < n ==> r[i].None?
    ensures isotopeList.Some? && !ListWarning(isotopeList, n) ==> r == isotopeList.value
  {
    if isotopeList.Some? && |isotopeList.value| == n then isotopeList.value
    else seq(n, _ => None)
  }

  /** `k * q_list`, element by element. */
  function Scale(k: real, q: seq<real>): (r: seq<real>)
    ensures |r| == |q|
    ensures forall i :: 0 <= i < |q| ==> r[i] == k * q[i]
  {
    seq(|q|, i requires 0 <= i < |q| => k * q[i])
  }

  /** NumPy's broadcasting product of two 1-D arrays: equal lengths multiply
      element by element, a length-1 array is repeated, anything else is a
      shape error. */
  function Broadcast(a: seq<real>, b: seq<real>): (r: Option<seq<real>>)
    ensures r.Some? <==> (|a| == |b| || |a| == 1 || |b| == 1)
    ensures r.Some? ==> |r.value| == (if |a| == 1 then |b| else |a|)
    ensures r.Some? ==> forall i :: 0 <= i < |r.value| ==>
      r.value[i] == a[if |a| == 1 then 0 else i] * b[if |b| == 1 then 0 else i]
  {
    if |a| == |b| then Some(seq(|a|, i requires 0 <= i < |a| => a[i] * b[i]))
    else if |a| == 1 then Some(seq(|b|, i requires 0 <= i < |b| => a[0] * b[i]))
    else if |b| == 1 then Some(seq(|a|, i requires 0 <= i < |a| => a[i] * b[0]))
    else None
  }

  /** The outcome of one quadrupolar-constant extraction, with whether the
      invalid-list warning was printed. */
  datatype QStep = QStep(result: Result<seq<real>, Error>, info: Info, passes: nat, warned: bool)

  /** One atom's quadrupolar constant in Hz: k * Q * Vzz. */
  function Coupling(k: real, q: real, vzz: real): real {
    k * q * vzz
  }

  /** `k * q_list * vzz`: the moments scaled by k, broadcast against the
      Vzz array. */
  function Product(k: real, q: seq<real>, vzz: seq<real>): (r: Result<seq<real>, Error>)
    ensures r.Ok? <==> (|q| == |vzz| || |q| == 1 || |vzz| == 1)
    ensures |q| == |vzz| ==> (r.Ok? && |r.value| == |q| &&
      forall i :: 0 <= i < |q| ==> r.value[i] == Coupling(k, q[i], vzz[i]))
  {
    var kq := Scale(k, q);
    match Broadcast(kq, vzz)
    case None => Err(ShapeMismatch)
    case Some(out) => Ok(out)
  }

  /** The product, read against the sorted triples Vzz was taken from. */
  lemma ProductOfVzz(k: real, q: seq<real>, vzz: seq<real>, h: seq<Triple>)
    requires |vzz| == |h|
    requires forall i :: 0 <= i < |vzz| ==> vzz[i] == h[i].e2
    ensures |h| == |q| ==> Product(k, q, vzz).Ok?
    ensures |h| == |q| ==>
      forall i :: 0 <= i < |q| ==> Product(k, q, vzz).value[i] == Coupling(k, q[i], h[i].e2)
  {
  }

  /** The last line of the extraction, `k * q_list * EFGVzz.get(s)`, with
      Vzz under its default (unforced) parameters. */
  function VzzProduct(s: Structure, eigh: Eigensolver, k: real, q: seq<real>): (r: Step<seq<real>>)
    ensures r.info == EfgProperties.EfgVzz(s, false, eigh).info
    ensures r.passes == EfgProperties.EfgVzz(s, false, eigh).passes
    ensures EfgProperties.EfgVzz(s, false, eigh).result.Err? ==>
      r.result == Err(EfgProperties.EfgVzz(s, false, eigh).result.error)
    ensures r.result.Ok? ==>
      && HsortKey in r.info && r.info[HsortKey].TripleArray?
      && var h := r.info[HsortKey].triples;
      && (|h| == |q| ==>
            && |r.result.value| == |q|
            && forall i :: 0 <= i < |q| ==> r.result.value[i] == Coupling(k, q[i], h[i].e2))
  {
    var v := EfgProperties.EfgVzz(s, false, eigh);
    match v.result
    case Err(e) => Step(Err(e), v.info, v.passes)
    case Ok(vzz) =>
      ProductOfVzz(k, q, vzz, v.info[HsortKey].triples);
      Step(Product(k, q, vzz), v.info, v.passes)
  }

  /** The extraction after the plain eigenvalues were refreshed into
      `s.info` (with `passes` diagonalisations so far): reference-table check,
      list validation, per-atom moments, then the Vzz product. */
  function AfterRefresh(s: Structure, passes: nat, eigh: Eigensolver, data: Option<Table>, k: real,
                        useQIsotopes: bool, isotopes: map<string, string>,
                        isotopeList: Option<seq<Option<string>>>): (r: QStep)
    ensures data.None? ==> r == QStep(Err(NmrDataUnavailable), s.info, passes, false)
    ensures data.Some? ==>
      var m := Moments(s.elements, Entries(None, |s.elements|), data.value, isotopes, useQIsotopes);
      && r.warned == ListWarning(isotopeList, |s.elements|)
      && (m.Err? ==> r.result == Err(m.error) && r.info == s.info && r.passes == passes)
    ensures passes <= r.passes <= passes + 1
    ensures HsortKey in s.info ==> r.passes == passes
    ensures r.result.Ok? ==>
      && data.Some?
      && var m := Moments(s.elements, Entries(None, |s.elements|), data.value, isotopes, useQIsotopes);
      && m.Ok?
      && HsortKey in r.info && r.info[HsortKey].TripleArray?
      && var h := r.info[HsortKey].triples;
      && (|h| == |s.elements| ==>
            && |r.result.value| == |s.elements|
            && forall i :: 0 <= i < |s.elements| ==> r.result.value[i] == Coupling(k, m.value[i], h[i].e2))
  {
    match GetNmrData(data)
    case Err(e) => QStep(Err(e), s.info, passes, false)
    case Ok(table) =>
      var n := |s.elements|;
      var warned := ListWarning(isotopeList, n);
      var entries := Entries(isotopeList, n);
      MomentsIgnoreEntries(s.elements, entries, Entries(None, n), table, isotopes, useQIsotopes);
      match Moments(s.elements, entries, table, isotopes, useQIsotopes)
      case Err(e) => QStep(Err(e), s.info, passes, warned)
      case Ok(q) =>
        var v := VzzProduct(s, eigh, k, q);
        QStep(v.result, v.info, passes + v.passes, warned)
  }

  /** `EFGQuadrupolarConstant.extract`. The steps run in the source's order:
      'efg' check; refresh of the plain eigenvalues; then the rest. */
  function EfgQuadrupolarConstant(s: Structure, eigh: Eigensolver, data: Option<Table>, k: real,
                                  force: bool, useQIsotopes: bool, isotopes: map<string, string>,
                                  isotopeList: Option<seq<Option<string>>>): (r: QStep)
    ensures s.efg.None? ==> r == QStep(Err(MissingEfg), s.info, 0, false)
    ensures r.result.Ok? ==>
      && data.Some?
      && var m := Moments(s.elements, Entries(None, |s.elements|), data.value, isotopes, useQIsotopes);
      && m.Ok?
      && HsortKey in r.info && r.info[HsortKey].TripleArray?
      && var h := r.info[HsortKey].triples;
      && (|h| == |s.elements| ==>
            && |r.result.value| == |s.elements|
            && forall i :: 0 <= i < |s.elements| ==> r.result.value[i] == Coupling(k, m.value[i], h[i].e2))
  {
    match HasEfgCheck(s)
    case Err(e) => QStep(Err(e), s.info, 0, false)
    case Ok(_) =>
      var p := Refresh(s, Evals, force, eigh);
      if p.result.Err? then QStep(Err(p.result.error), p.info, p.passes, false)
      else AfterRefresh(s.(info := p.info), p.passes, eigh, data, k, useQIsotopes, isotopes, isotopeList)
  }

  /** A single request diagonalises at most once: after the plain entry is
      refreshed the sorted one is present too, so the final Vzz read only
      diagonalises when a caller removed the sorted entry but not the plain one. */
  lemma QConstAtMostOnePass(s: Structure, eigh: Eigensolver, data: Option<Table>, k: real,
                            force: bool, useQIsotopes: bool, isotopes: map<string, string>,
                            isotopeList: Option<seq<Option<string>>>)
    ensures EfgQuadrupolarConstant(s, eigh, data, k, force, useQIsotopes, isotopes, isotopeList).passes <= 1
  {
  }

  /** A cache hit: with both eigenvalue entries present and no forcing,
      the extraction diagonalises nothing and leaves `info` as it was,
      whatever the table, the list and the atoms hold. */
  lemma QConstCacheHit(s: Structure, eigh: Eigensolver, data: Option<Table>, k: real,
                       useQIsotopes: bool, isotopes: map<string, string>,
                       isotopeList: Option<seq<Option<string>>>)
    requires s.efg.Some? && EvalsKey in s.info && HsortKey in s.info
    ensures
      var r := EfgQuadrupolarConstant(s, eigh, data, k, false, useQIsotopes, isotopes, isotopeList);
      r.passes == 0 && r.info == s.info
  {
  }

  /** The pass rule of the whole extraction: once the table and every atom
      resolve, a batch of tensors is diagonalised (once, saving all three
      entries) exactly when recalculation is forced or either eigenvalue
      entry is missing. The plain entry is refreshed first; the sorted one is
      refreshed by the closing Vzz read. */
  lemma QConstPassRule(s: Structure, eigh: Eigensolver, table: Table, k: real,
                       force: bool, useQIsotopes: bool, isotopes: map<string, string>,
                       isotopeList: Option<seq<Option<string>>>)
    requires s.efg.Some? && |s.efg.value| > 0
    requires Moments(s.elements, Entries(None, |s.elements|), table, isotopes, useQIsotopes).Ok?
    ensures
      var r := EfgQuadrupolarConstant(s, eigh, Some(table), k, force, useQIsotopes, isotopes, isotopeList);
      && (r.passes == 1 <==> (force || EvalsKey !in s.info || HsortKey !in s.info))
      && (r.passes == 1 ==> SavedDiagonal(r.info, s.info, Diagonalise(s.efg.value, eigh)))
      && (r.passes == 0 ==> r.info == s.info)
  {
    var n := |s.elements|;
    MomentsIgnoreEntries(s.elements, Entries(isotopeList, n), Entries(None, n), table, isotopes, useQIsotopes);
    var p := Refresh(s, Evals, force, eigh);
    assert p.result.Ok?;
  }

  /** The missing-table error comes only after the plain eigenvalues were
      refreshed: a needed diagonalisation has already written its entries. */
  lemma QConstTableCheckedAfterDiagonal(s: Structure, eigh: Eigensolver, k: real,
                                        force: bool, useQIsotopes: bool, isotopes: map<string, string>,
                                        isotopeList: Option<seq<Option<string>>>)
    requires s.efg.Some? && |s.efg.value| > 0
    ensures
      var r := EfgQuadrupolarConstant(s, eigh, None, k, force, useQIsotopes, isotopes, isotopeList);
      && r.result == Err(NmrDataUnavailable)
      && !r.warned
      && (r.passes == 1 <==> (EvalsKey !in s.info || force))
      && (r.passes == 1 ==> SavedDiagonal(r.info, s.info, Diagonalise(s.efg.value, eigh)))
      && (r.passes == 0 ==> r.info == s.info)
  {
  }

  /** With the table loaded and tensors present, an invalid list only warns,
      and any atom whose element or isotope is unknown aborts the whole batch
      with that atom's error. The refresh of the plain eigenvalues has
      already run by then: a needed diagonalisation took its pass and saved
      its entries, and otherwise `info` is as it was. */
  lemma QConstAtomErrors(s: Structure, eigh: Eigensolver, table: Table, k: real,
                         force: bool, useQIsotopes: bool, isotopes: map<string, string>,
                         isotopeList: Option<seq<Option<string>>>)
    requires s.efg.Some? && |s.efg.value| > 0
    ensures
      var r := EfgQuadrupolarConstant(s, eigh, Some(table), k, force, useQIsotopes, isotopes, isotopeList);
      var m := Moments(s.elements, Entries(None, |s.elements|), table, isotopes, useQIsotopes);
      && r.warned == ListWarning(isotopeList, |s.elements|)
      && (m.Err? ==> r.result == Err(m.error))
      && (r.result.Ok? ==> m.Ok?)
      && (m.Err? ==>
            && (r.passes == 1 <==> (force || EvalsKey !in s.info))
            && (r.passes == 1 ==> SavedDiagonal(r.info, s.info, Diagonalise(s.efg.value, eigh)))
            && (r.passes == 0 ==> r.info == s.info))
  {
  }

  /** Success on a cache hit: with both eigenvalue entries cached, the
      sorted one holding a triple per atom, no forcing and every atom
      resolvable, constant i is k * Q_i times position 2 of the cached
      sorted triple of atom i, and nothing is diagonalised or written. */
  lemma QConstCachedSucceeds(s: Structure, eigh: Eigensolver, table: Table, k: real,
                             useQIsotopes: bool, isotopes: map<string, string>,
                             isotopeList: Option<seq<Option<string>>>)
    requires s.efg.Some? && EvalsKey in s.info && HsortKey in s.info
    requires s.info[HsortKey].TripleArray? && |s.info[HsortKey].triples| == |s.elements|
    requires forall i :: 0 <= i < |s.elements| ==>
      AtomMoment(s.elements[i], table, None, isotopes, useQIsotopes).Ok?
    ensures
      var r := EfgQuadrupolarConstant(s, eigh, Some(table), k, false, useQIsotopes, isotopes, isotopeList);
      && r.result.Ok? && r.passes == 0 && r.info == s.info
      && |r.result.value| == |s.elements|
      && forall i :: 0 <= i < |s.elements| ==>
           r.result.value[i] == Coupling(k,
             AtomMoment(s.elements[i], table, None, isotopes, useQIsotopes).value,
             s.info[HsortKey].triples[i].e2)
  {
  }

  /** An element missing from the table aborts the batch with that element's
      error, even when the atoms after it are valid; no partial result. */
  lemma UnknownElementAbortsBatch(s: Structure, eigh: Eigensolver, table: Table, k: real,
                                  force: bool, useQIsotopes: bool, isotopes: map<string, string>,
                                  isotopeList: Option<seq<Option<string>>>, j: nat)
    requires s.efg.Some? && |s.efg.value| > 0
    requires j < |s.elements| && s.elements[j] !in table
    requires forall i :: 0 <= i < j ==>
      AtomMoment(s.elements[i], table, None, isotopes, useQIsotopes).Ok?
    ensures EfgQuadrupolarConstant(s, eigh, Some(table), k, force, useQIsotopes, isotopes, isotopeList).result
            == Err(NoElementData(s.elements[j]))
  {
    var en := Entries(None, |s.elements|);
    forall i | 0 <= i < j
      ensures AtomMoment(s.elements[i], table, en[i], isotopes, useQIsotopes).Ok?
    {
      assert en[i] == None;
    }
    FirstFailureDecides(s.elements, en, table, isotopes, useQIsotopes, j);
    QConstAtomErrors(s, eigh, table, k, force, useQIsotopes, isotopes, isotopeList);
  }

  /** The `isotope_list` argument changes nothing but the warning: result,
      `info` and diagonalisation count are the same for every list. */
  lemma QConstIgnoresIsotopeList(s: Structure, eigh: Eigensolver, data: Option<Table>, k: real,
                                 force: bool, useQIsotopes: bool, isotopes: map<string, string>,
                                 list1: Option<seq<Option<string>>>, list2: Option<seq<Option<string>>>)
    ensures
      var r1 := EfgQuadrupolarConstant(s, eigh, data, k, force, useQIsotopes, isotopes, list1);
      var r2 := EfgQuadrupolarConstant(s, eigh, data, k, force, useQIsotopes, isotopes, list2);
      r1.result == r2.result && r1.info == r2.info && r1.passes == r2.passes
  {
    if s.efg.Some? {
      var p := Refresh(s, Evals, force, eigh);
      if p.result.Ok? {
        AfterRefreshIgnoresList(s.(info := p.info), p.passes, eigh, data, k, useQIsotopes, isotopes, list1, list2);
      }
    }
  }

  lemma AfterRefreshIgnoresList(s: Structure, passes: nat, eigh: Eigensolver, data: Option<Table>, k: real,
                                useQIsotopes: bool, isotopes: map<string, string>,
                                list1: Option<seq<Option<string>>>, list2: Option<seq<Option<string>>>)
    ensures
      var r1 := AfterRefresh(s, passes, eigh, data, k, useQIsotopes, isotopes, list1);
      var r2 := AfterRefresh(s, passes, eigh, data, k, useQIsotopes, isotopes, list2);
      r1.result == r2.result && r1.info == r2.info && r1.passes == r2.passes
  {
    if data.Some? {
      var n := |s.elements|;
      MomentsIgnoreEntries(s.elements, Entries(list1, n), Entries(list2, n), data.value, isotopes, useQIsotopes);
    }
  }

  /** Atoms whose resolved isotope has a zero quadrupole moment get a zero
      constant. */
  lemma QConstZeroForInactive(s: Structure, eigh: Eigensolver, table: Table, k: real,
                              force: bool, useQIsotopes: bool, isotopes: map<string, string>,
                              isotopeList: Option<seq<Option<string>>>, i: nat)
    requires i < |s.elements|
    ensures
      var r := EfgQuadrupolarConstant(s, eigh, Some(table), k, force, useQIsotopes, isotopes, isotopeList);
      r.result.Ok? && |r.info[HsortKey].triples| == |s.elements| &&
      AtomMoment(s.elements[i], table, None, isotopes, useQIsotopes) == Ok(0.0)
      ==> r.result.value[i] == 0.0
  {
  }

  /** With fresh tensors, a loaded table and every atom resolvable, the
      extraction succeeds after one diagonalisation and leaves the freshly
      sorted eigenvalues in `info`. */
  lemma QConstFreshSucceeds(s: Structure, eigh: Eigensolver, table: Table, k: real,
                            force: bool, useQIsotopes: bool, isotopes: map<string, string>,
                            isotopeList: Option<seq<Option<string>>>)
    requires s.efg.Some? && |s.efg.value| > 0 && |s.efg.value| == |s.elements|
    requires force || EvalsKey !in s.info
    requires forall i :: 0 <= i < |s.elements| ==>
      AtomMoment(s.elements[i], table, None, isotopes, useQIsotopes).Ok?
    ensures
      var r := EfgQuadrupolarConstant(s, eigh, Some(table), k, force, useQIsotopes, isotopes, isotopeList);
      && r.result.Ok? && r.passes == 1
      && r.info[HsortKey] == TripleArray(FreshEntry(Hsort, s.efg.value, eigh))
  {
    var n := |s.elements|;
    var en := Entries(None, n);
    forall i | 0 <= i < n
      ensures AtomMoment(s.elements[i], table, en[i], isotopes, useQIsotopes).Ok?
    {
      assert en[i] == None;
    }
    MomentsIgnoreEntries(s.elements, Entries(isotopeList, n), en, table, isotopes, useQIsotopes);
    var q := Moments(s.elements, Entries(isotopeList, n), table, isotopes, useQIsotopes);
    assert q.Ok? && |q.value| == n;
    var p := Refresh(s, Evals, force, eigh);
    assert p.result.Ok? && p.passes == 1;
    var s1 := s.(info := p.info);
    var v := EfgProperties.EfgVzz(s1, false, eigh);
    assert v.passes == 0 && v.info == p.info;
    assert v.result.Ok? && |v.result.value| == n;
    var w := VzzProduct(s1, eigh, k, q.value);
    assert w.result.Ok? && w.info == p.info && w.passes == 0;
  }

  /** End to end: with fresh tensors (recalculation forced or nothing cached),
      a loaded table and every atom resolvable, the constant of atom i is
      k * Q_i * Vzz_i with Vzz_i read from the Haeberlen-sorted eigenvalues of
      its symmetrised tensor, after exactly one diagonalisation. */
  lemma QConstFresh(s: Structure, eigh: Eigensolver, table: Table, k: real,
                    force: bool, useQIsotopes: bool, isotopes: map<string, string>,
                    isotopeList: Option<seq<Option<string>>>)
    requires s.efg.Some? && |s.efg.value| > 0 && |s.efg.value| == |s.elements|
    requires force || EvalsKey !in s.info
    requires forall i :: 0 <= i < |s.elements| ==>
      AtomMoment(s.elements[i], table, None, isotopes, useQIsotopes).Ok?
    ensures
      var r := EfgQuadrupolarConstant(s, eigh, Some(table), k, force, useQIsotopes, isotopes, isotopeList);
      && r.result.Ok? && r.passes == 1
      && |r.result.value| == |s.elements|
      && forall i :: 0 <= i < |s.elements| ==>
           r.result.value[i] == Coupling(k,
             AtomMoment(s.elements[i], table, None, isotopes, useQIsotopes).value,
             Haeberlen.HaebSort(eigh(Tensors.Symmetrize(s.efg.value[i])).evals).e2)
  {
    QConstFreshSucceeds(s, eigh, table, k, force, useQIsotopes, isotopes, isotopeList);
    var r := EfgQuadrupolarConstant(s, eigh, Some(table), k, force, useQIsotopes, isotopes, isotopeList);
    var m := Moments(s.elements, Entries(None, |s.elements|), table, isotopes, useQIsotopes);
    var h := r.info[HsortKey].triples;
    assert h == FreshEntry(Hsort, s.efg.value, eigh);
    forall i | 0 <= i < |s.elements|
      ensures r.result.value[i] == Coupling(k,
                AtomMoment(s.elements[i], table, None, isotopes, useQIsotopes).value,
                Haeberlen.HaebSort(eigh(Tensors.Symmetrize(s.efg.value[i])).evals).e2)
    {
      FreshSortedAt(s.efg.value, eigh, i);
      MomentWithoutListAt(s.elements, table, isotopes, useQIsotopes, i);
    }
  }

  lemma FreshSortedAt(efg: seq<Tensors.Matrix3>, eigh: Eigensolver, i: nat)
    requires i < |efg|
    ensures |FreshEntry(Hsort, efg, eigh)| == |efg|
    ensures FreshEntry(Hsort, efg, eigh)[i] == Haeberlen.HaebSort(eigh(Tensors.Symmetrize(efg[i])).evals)
  {
  }

  lemma MomentWithoutListAt(elems: seq<string>, table: Table, isotopes: map<string, string>,
                            useQIsotopes: bool, i: nat)
    requires i < |elems|
    ensures
      var m := Moments(elems, Entries(None, |elems|), table, isotopes, useQIsotopes);
      m.Ok? ==> m.value[i] == AtomMoment(elems[i], table, None, isotopes, useQIsotopes).value
  {
  }
}

=== FILE: tensors.dfy ===
/** 3x3 real tensors and the symmetrisation applied to every EFG tensor
    before it is diagonalised (soprano/properties/nmr/efg.py, `(efg+efg.T)/2`). */
module Tensors {

  /** A 3x3 real matrix, row by row. */
  datatype Matrix3 = Matrix3(
    m00: real, m01: real, m02: real,
    m10: real, m11: real, m12: real,
    m20: real, m21: real, m22: real)
  {
    /** The entry in row `i`, column `j`. */
    function At(i: nat, j: nat): real
      requires i < 3 && j < 3
    {
      if i == 0 then (if j == 0 then m00 else if j == 1 then m01 else m02)
      else if i == 1 then (if j == 0 then m10 else if j == 1 then m11 else m12)
      else (if j == 0 then m20 else if j == 1 then m21 else m22)
    }

    function Trace(): real {
      m00 + m11 + m22
    }
  }

  /** Off-diagonal entries mirror each other. */
  predicate IsSymmetric(m: Matrix3) {
    m.m01 == m.m10 && m.m02 == m.m20 && m.m12 == m.m21
  }

  function Transpose(m: Matrix3): (r: Matrix3)
    ensures forall i, j :: 0 <= i < 3 && 0 <= j < 3 ==> r.At(i, j) == m.At(j, i)
  {
    Matrix3(m.m00, m.m10, m.m20,
            m.m01, m.m11, m.m21,
            m.m02, m.m12, m.m22)
  }

  /** (M + M^T) / 2, entry by entry. */
  function Symmetrize(m: Matrix3): (r: Matrix3)
    ensures IsSymmetric(r)
    ensures r.Trace() == m.Trace()
    ensures IsSymmetric(m) ==> r == m
  {
    var t := Transpose(m);
    Matrix3((m.m00 + t.m00) / 2.0, (m.m01 + t.m01) / 2.0, (m.m02 + t.m02) / 2.0,
            (m.m10 + t.m10) / 2.0, (m.m11 + t.m11) / 2.0, (m.m12 + t.m12) / 2.0,
            (m.m20 + t.m20) / 2.0, (m.m21 + t.m21) / 2.0, (m.m22 + t.m22) / 2.0)
  }

  /** Each entry of the symmetric part is the average of the entry and its
      mirror image; in particular symmetrising twice is symmetrising once,
      and a matrix and its transpose have the same symmetric part. */
  lemma SymmetrizeProperties(m: Matrix3)
    ensures forall i, j :: 0 <= i < 3 && 0 <= j < 3 ==>
      Symmetrize(m).At(i, j) == Symmetrize(m).At(j, i)
    ensures forall i, j :: 0 <= i < 3 && 0 <= j < 3 ==>
      Symmetrize(m).At(i, j) == (m.At(i, j) + m.At(j, i)) / 2.0
    ensures Symmetrize(Symmetrize(m)) == Symmetrize(m)
    ensures Symmetrize(Transpose(m)) == Symmetrize(m)
  {
  }
}

=== FILE: triples.dfy ===
/** Real triples: one per atom, holding three eigenvalues (or any three
    per-axis quantities) at positions 0, 1 and 2. */
module Triples {

  datatype Triple = Triple(e0: real, e1: real, e2: real) {

    /** The component at position `i`. */
    function At(i: nat): real
      requires i < 3
    {
      if i == 0 then e0 else if i == 1 then e1 else e2
    }

    /** The eigenvalues as a multiset, forgetting their positions. */
    function Elems(): multiset<real> {
      multiset{e0, e1, e2}
    }

    /** The isotropic value: the average of the three components. */
    function Mean(): real {
      (e0 + e1 + e2) / 3.0
    }
  }

  function Abs(x: real): real {
    if x < 0.0 then -x else x
  }

  /** Add `k` to every component. */
  function Shift(t: Triple, k: real): Triple {
    Triple(t.e0 + k, t.e1 + k, t.e2 + k)
  }

  /** Reflect every component about the triple's mean: e becomes 2m - e. */
  function Reflect(t: Triple): Triple {
    var m := t.Mean();
    Triple(2.0 * m - t.e0, 2.0 * m - t.e1, 2.0 * m - t.e2)
  }

  predicate Ascending(t: Triple) {
    t.e0 <= t.e1 <= t.e2
  }

  /** The components in ascending order, as a sort of three values yields. */
  function Sort3(t: Triple): (r: Triple)
    ensures Ascending(r)
  {
    var (a, b, c) := (t.e0, t.e1, t.e2);
    if a <= b then
      if b <= c then Triple(a, b, c)
      else if a <= c then Triple(a, c, b)
      else Triple(c, a, b)
    else
      if a <= c then Triple(b, a, c)
      else if b <= c then Triple(b, c, a)
      else Triple(c, b, a)
  }

  /** Sorting only rearranges: the sorted triple holds the same values. */
  lemma Sort3Permutes(t: Triple)
    ensures Sort3(t).Elems() == t.Elems()
  {
    var (a, b, c) := (t.e0, t.e1, t.e2);
    var s := Sort3(t);
    if s == Triple(a, b, c) {
    } else if s == Triple(b, a, c) {
      SwapElems(a, b, c);
    } else if s == Triple(b, c, a) {
      RotateElems(a, b, c);
    } else if s == Triple(c, a, b) {
      RotateElems(a, b, c);
      RotateElems(b, c, a);
    } else if s == Triple(c, b, a) {
      RotateElems(a, b, c);
      SwapElems(b, c, a);
    } else {
      assert s == Triple(a, c, b);
      RotateElems(a, b, c);
      RotateElems(b, c, a);
      SwapElems(c, a, b);
    }
  }

  /** Two triples holding the same values have the same mean. */
  lemma SameElemsSameMean(t: Triple, u: Triple)
    requires t.Elems() == u.Elems()
    ensures t.Mean() == u.Mean()
  {
  }

  /** Multisets of three forget order: rotation. */
  lemma RotateElems(a: real, b: real, c: real)
    ensures multiset{a, b, c} == multiset{b, c, a}
  {
  }

  /** Multisets of three forget order: exchange of the first two. */
  lemma SwapElems(a: real, b: real, c: real)
    ensures multiset{a, b, c} == multiset{b, a, c}
  {
  }

  /** Sorting is determined by the multiset alone: two ascending triples
      with the same values are equal. */
  lemma AscendingUnique(t: Triple, u: Triple)
    requires Ascending(t) && Ascending(u)
    requires t.Elems() == u.Elems()
    ensures t == u
  {
  }

  /** Sorting forgets the input order. */
  lemma Sort3PermutationInvariant(t: Triple, u: Triple)
    requires t.Elems() == u.Elems()
    ensures Sort3(t) == Sort3(u)
  {
    Sort3Permutes(t);
    Sort3Permutes(u);
    AscendingUnique(Sort3(t), Sort3(u));
  }
}
